=== FILE: README.md ===
# Face recognizer service — a Dafny model

This project models the decision and bookkeeping core of `FaceRecognizerService`
(`backend/cv/recognizer.py`) and two helpers of `backend/cv/io_utils.py`:

- the label registry: `labels_to_ids`, its inverse `ids_to_labels`, and fresh ids from `_next_label_id`;
- the per-label metadata records: `set_label_metadata`, `set_label_title` and `get_label_metadata`;
- face localisation in `_prepare_face` and `_prepare_face_variants`: pick the largest box, pad it, clip it, crop it (`crop_to_bbox`);
- sample numbering and upload counting in `add_training_images_for_label`;
- dataset collection, training and the adaptive thresholds of `rebuild_from_dataset`;
- `delete_label_and_retrain`;
- the recognition rule of `predict_from_bgr_image`: variant filter, majority vote, fallback, score and adaptive threshold;
- the comma guard of `decode_data_url_to_image`.

OpenCV, numpy statistics and the file system are not modelled:

- Every OpenCV call (colour conversion, equalisation, the Haar detector, normalisation, JPEG coding, LBPH prediction) and the float `mean + 2 * std` are function-valued fields of `Vision.Cv`. The model assumes nothing about them.
- Distances are exact `real`s.
- The dataset directory is a map from label to a map from file name to bytes.
- The trained model is the sequence of samples it was trained on.

Modules, one per component:

| module | file | models |
|---|---|---|
| `Wrappers` | wrappers.dfy | `Option` and `dict.get` |
| `Sets` | sets.dfy | `max()` of a finite set |
| `Text` | text.dfy | case folding, decimal digits, `{n:04d}`, code-point string order, `sorted()` |
| `Vision` | vision.dfy | image, box, sample and prediction types; the library boundary `Cv` |
| `IoUtils` | io_utils.dfy | Python slicing, `crop_to_bbox`, the data-URL split |
| `Registry` | registry.dfy | label ids, allocation, inverse, removal |
| `Metadata` | metadata.dfy | metadata merge and title setter |
| `Faces` | faces.dfy | largest face, padding, clamping, variants |
| `Samples` | samples.dfy | sample-name pattern, numbering, saving a batch |
| `Voting` | voting.dfy | variant filter, vote, fallback, score, effective threshold |
| `Service` | service.dfy | the service state and its four operations |

Behaviours the model keeps exactly as the code has them:

- A new label gets `max + 1`, or 0 when the registry is empty. A freed id is therefore handed out again once every label with a larger id has been deleted.
- Deleting the last label directory keeps the previous model: no rebuild runs when no directory remains.
- Deleting an unregistered label is not a no-op. Its directory is removed and the model is retrained.
- `removed` is a boolean.
- A rebuild that finds no face still registers every directory and rebuilds `ids_to_labels`. Then it removes the model and fails.
- Enrolment registers a new label in `labels_to_ids` without adding it to `ids_to_labels`. `Service.Valid` therefore requires only that every entry of the inverse resolves back, not that the two maps are exact inverses.

## Model

| member | source | states |
|---|---|---|
| Sets.Max | backend/cv/recognizer.py:134 | `max()` of a non-empty set is a member at least every member |
| Registry.MaxId | backend/cv/recognizer.py:134 | the largest id in use is one of the registry's ids and at least every id |
| Registry.NextLabelId | backend/cv/recognizer.py:133-134 | a fresh id is 0 for an empty registry, otherwise one more than an id in use, and exceeds every id in use |
| Registry.Ensure | backend/cv/recognizer.py:289-291 | registering adds exactly the label, keeps every existing id (so a registered label keeps its id), gives a new label exactly `_next_label_id()` (max + 1, or 0 for an empty registry), and keeps ids distinct |
| Registry.NextAfterEnsure | backend/cv/recognizer.py:133-134 | after a new label is registered, the next fresh id is one more than before |
| Registry.EnsureAll | backend/cv/recognizer.py:213-219 | registering the dataset's labels in turn adds exactly those labels, keeps existing ids, puts every new id above the old ones and keeps ids distinct |
| Registry.Fresh | backend/cv/recognizer.py:213-218 | the labels met in order that are not yet registered, each once, are exactly those of the order outside the registry |
| Registry.EnsureAllNumbersFresh | backend/cv/recognizer.py:213-218 | the i-th new label met gets id `_next_label_id() + i`: new labels are numbered consecutively from max + 1 in the order they are met |
| Registry.Inverse | backend/cv/recognizer.py:238 | the rebuilt `ids_to_labels` maps each label's id back to the label, holds nothing else, and is itself injective |
| Registry.InverseRoundTrip | backend/cv/recognizer.py:238 | inverting the inverse gives back the registry |
| Registry.InverseResolves | backend/cv/recognizer.py:238 | every id of the rebuilt inverse resolves to a label with that id |
| Registry.Remove | backend/cv/recognizer.py:459-460 | removal drops exactly the label, keeps every other id and keeps ids distinct |
| Registry.InverseAfterRemove | backend/cv/recognizer.py:459-462 | after a removal the rebuilt inverse is the old one minus the removed label's id |
| Metadata.IgnoredExactly | backend/cv/recognizer.py:124 | the merge leaves out exactly `None` and the empty string |
| Metadata.Merge | backend/cv/recognizer.py:124 | the merged record has the kept new fields with their new values and every other old field unchanged, and nothing else |
| Metadata.SetLabelMetadata | backend/cv/recognizer.py:120-126 | an empty label changes nothing; otherwise the label's record (empty if missing) is merged and every other label's record is untouched |
| Metadata.SetLabelTitle | backend/cv/recognizer.py:110-118 | with a title and a non-empty label only the record's `title` field changes (to the title); otherwise nothing changes |
| Metadata.GetLabelMetadata | backend/cv/recognizer.py:128-131 | a record is returned exactly for a non-empty label that has one, and it is that label's record |
| Metadata.EmptyTitleOnlyStoredByTitleSetter | backend/cv/recognizer.py:110-126 | an empty title is stored by the title setter but ignored by the metadata merge |
| Faces.Largest | backend/cv/recognizer.py:147-148 | the chosen box has the largest area and no earlier box has the same area (the stable sort's head) |
| Faces.PadAmount | backend/cv/recognizer.py:151-152 | `int(p * extent)` truncates toward zero: the largest pad not above the exact product for a non-negative extent |
| Faces.PadAndClamp | backend/cv/recognizer.py:153-157 | the padded box is clipped to the image with non-negative size, covers the detected box when that lies inside the image, and each side moves by the full pad unless the image edge stops it |
| Faces.PrepareFace | backend/cv/recognizer.py:136-169 | no face exactly when the detector finds nothing |
| Faces.PrepareFaceVariants | backend/cv/recognizer.py:171-208 | no variant exactly when the detector finds nothing, otherwise one per padding |
| Faces.VariantBoxesInside | backend/cv/recognizer.py:149-158 | every crop box of either preparation lies inside the image, covers the largest detection, and crops to exactly `h` rows of `w` pixels |
| IoUtils.SliceBound | backend/cv/io_utils.py:39 | a slice bound lands in `0..n` and is unchanged when already there |
| IoUtils.Slice | backend/cv/io_utils.py:39 | an in-range slice has `stop - start` elements, each the input element at its offset |
| IoUtils.Crop | backend/cv/io_utils.py:37-39 | for a box inside a rectangular image the crop has `h` rows of `w` pixels, pixel `(i, j)` being input pixel `(y + i, x + j)` |
| IoUtils.SplitAtFirstComma | backend/cv/io_utils.py:16-19 | no split exactly when there is no comma; otherwise a comma-free header, the comma and the payload rebuild the input |
| IoUtils.SplitUnique | backend/cv/io_utils.py:19 | a string splits only one way into a comma-free header, a comma and a payload |
| IoUtils.DecodeDataUrl | backend/cv/io_utils.py:15-25 | a non-string or comma-free input gives `None`; otherwise the decoder sees exactly the text after the first comma |
| Text.FormatRoundTrip | backend/cv/recognizer.py:318 | reading back a zero-padded index gives the index |
| Text.DecimalLength | backend/cv/recognizer.py:318 | the zero-padded index has exactly four digits precisely when it is below 10000 |
| Text.ValueBelowPow10 | backend/cv/recognizer.py:299 | `int()` of `k` digits is below `10^k` |
| Text.Sorted | backend/cv/recognizer.py:213 | `sorted()` of the directory names lists each exactly once in strictly ascending code-point order |
| Samples.StripFinalNewline | backend/cv/recognizer.py:294 | `$` also matches before one final newline: a string ending in a newline loses exactly that one character, and any other string is kept whole |
| Samples.FinalNewlineIgnored | backend/cv/recognizer.py:294 | a name followed by one newline reads as the name itself, and a name followed by two newlines never matches |
| Samples.SampleIndex | backend/cv/recognizer.py:293-300 | a matched name has at least the ten pattern characters and a digit count the rule accepts, and `\d{4}` never reads an index of 10000 or more; `Samples.ParseSampleName` characterises it on the writer's names |
| Samples.SampleName | backend/cv/recognizer.py:318 | a written name is `image_`, digits, `.jpg`, and has exactly four digits precisely below index 10000; `Samples.SampleNameIndex` reads it back |
| Samples.ParseSampleName | backend/cv/recognizer.py:294-300 | a name of the writer's shape is matched exactly when the pattern accepts its digit count, and yields the digits' value |
| Samples.SampleNameIndex | backend/cv/recognizer.py:294-318 | the pattern reads back the index of every written name when it accepts four or more digits, but with exactly four digits only below 10000 |
| Samples.SampleNamesDistinct | backend/cv/recognizer.py:318 | distinct indices give distinct file names |
| Samples.Found | backend/cv/recognizer.py:296-302 | the indices found are exactly those the pattern reads from the directory's names |
| Samples.FirstIndex | backend/cv/recognizer.py:295-303 | numbering starts above every index found, and, when not 0, right after one of them |
| Samples.Attempts | backend/cv/recognizer.py:305-316 | every upload is decoded and prepared, in order |
| Samples.SavedExactly | backend/cv/recognizer.py:312-321 | the faces saved are exactly the successfully prepared ones, none invented |
| Samples.SaveUploads | backend/cv/recognizer.py:305-324 | every upload is counted once, and the processed count is the number of faces prepared |
| Samples.SaveUploadsKeeps | backend/cv/recognizer.py:318-321 | a name outside the batch's range keeps its file, or its absence |
| Samples.SaveUploadsStores | backend/cv/recognizer.py:318-321 | the j-th prepared face is written under the j-th name of the batch |
| Samples.SaveUploadsAdds | backend/cv/recognizer.py:318-321 | every new file is one of the batch's names |
| Samples.SaveSingle | backend/cv/recognizer.py:318-321 | one prepared face is written under the starting index and counted as processed |
| Samples.NextAfterOnlyMatch | backend/cv/recognizer.py:295-303 | with one matching name of index `k` and one non-matching name, numbering starts at `k + 1` |
| Samples.AddSamples | backend/cv/recognizer.py:278-324 | the upload (with `\d{4,}`) counts each file once and processes exactly the prepared faces |
| Samples.AddSamplesKeepsExisting | backend/cv/recognizer.py:279-281 | no existing file is overwritten or removed |
| Samples.AddSamplesStores | backend/cv/recognizer.py:318-321 | the j-th saved face is stored as sample `FirstIndex + j` |
| Samples.AddSamplesOnlyAddsSamples | backend/cv/recognizer.py:318-321 | the only files added are the batch's sample names |
| Samples.AddSamplesAsWritten | backend/cv/recognizer.py:294-324 | the upload as written, with `\d{4}`, counts the same way |
| Samples.AddSamplesAsWrittenKeepsMatched | backend/cv/recognizer.py:294-321 | the upload as written never overwrites or removes a file whose name `\d{4}` reads |
| Samples.AsWrittenOverwritesFiveDigitSample | backend/cv/recognizer.py:294 | with `image_9999.jpg` and `image_10000.jpg` present, the next saved face replaces `image_10000.jpg` |
| Samples.CorrectedKeepsFiveDigitSample | backend/cv/recognizer.py:294 | with the corrected pattern both existing samples survive the same upload |
| Voting.Filter | backend/cv/recognizer.py:336-344 | a variant is kept exactly when both sides are at least 90 and `w / h` lies in `[0.7, 1.4]`, each kept variant as often as in the input |
| Voting.FilterAppend | backend/cv/recognizer.py:336-344 | the filter keeps the variants' order: it distributes over concatenation |
| Voting.FilterIdempotent | backend/cv/recognizer.py:336-344 | filtering the filtered variants changes nothing |
| Voting.Best | backend/cv/recognizer.py:351-356 | the best prediction has the smallest distance and is the first one with it |
| Voting.Qualifying | backend/cv/recognizer.py:357-358 | exactly the predictions at or under the threshold vote, each as often as it was predicted |
| Voting.QualifyingAppend | backend/cv/recognizer.py:352-358 | the votes arrive in the order of the predictions |
| Voting.Ballot | backend/cv/recognizer.py:358 | an id's ballot holds exactly its votes, each as often as it was cast, so its length is the vote count |
| Voting.BallotAppend | backend/cv/recognizer.py:358 | an id's ballot keeps the arrival order of its votes |
| Voting.Voters | backend/cv/recognizer.py:350-358 | the ids of `votes`, each once, exactly those with a vote |
| Voting.VotersInFirstVoteOrder | backend/cv/recognizer.py:358-369 | the ids are listed in the order of their first votes, the insertion order of the `votes` dict that breaks exact ties |
| Voting.MeanAtMost | backend/cv/recognizer.py:372 | a mean of distances all at most a bound is at most that bound |
| Voting.TallyOf | backend/cv/recognizer.py:369-379 | an id's tally counts its votes, averages them, and takes the box of its first closest vote (`min(entries, key=conf)`, as `Best` characterises it) |
| Voting.Tallies | backend/cv/recognizer.py:369 | one tally per voting id, in the order of `Voters`, each that id's tally |
| Voting.Choose | backend/cv/recognizer.py:364-379 | nothing is chosen exactly when no id has two votes; otherwise the chosen id is eligible, beaten by no eligible id (more votes, or as many and a lower mean), and beats every eligible id before it |
| Voting.WinnerUnique | backend/cv/recognizer.py:364-379 | the vote's result is the only entry with those properties |
| Voting.ChosenMeanWithinThreshold | backend/cv/recognizer.py:357-386 | the mean of any id's votes is within the threshold, so the acceptance test at line 386 never fails for a chosen id |
| Voting.Decide | backend/cv/recognizer.py:348-397 | an accepted confidence is within the threshold and comes with the id and box of some prediction; a rejection reports the best distance and its box |
| Voting.DecideCases | backend/cv/recognizer.py:385-397 | with a vote winner it is accepted; otherwise the best prediction is accepted exactly when at least 5 under the threshold |
| Voting.Score | backend/cv/recognizer.py:399 | the score lies in `[0, 1]` and is positive exactly when the distance is under the threshold |
| Voting.ScoreAntitone | backend/cv/recognizer.py:399 | a larger distance never gives a larger score |
| Voting.EffectiveThreshold | backend/cv/recognizer.py:403-404 | the effective threshold lies in `[threshold, threshold + 10]` and is the label's own when that lies there |
| Service.Listing | backend/cv/recognizer.py:220 | a directory listing holds exactly the directory's files |
| Service.DirSamples | backend/cv/recognizer.py:220-231 | a directory yields at most one sample per file, all tagged with its id |
| Service.DirSamplesExactly | backend/cv/recognizer.py:220-231 | a sample comes from a directory exactly when it carries the directory's id and is the prepared face of one of its files |
| Service.CollectFrom | backend/cv/recognizer.py:213-231 | every collected sample carries a registered id |
| Service.CollectFromExactly | backend/cv/recognizer.py:213-231 | a sample is collected exactly when one of the listed directories yields it |
| Service.Register | backend/cv/recognizer.py:213-238 | collection registers exactly the dataset's labels, keeps existing ids, numbers the unregistered directories consecutively from `_next_label_id()` in sorted order, rebuilds the exact inverse and keeps the state valid |
| Service.Gather | backend/cv/recognizer.py:210-232 | every gathered sample carries a registered id |
| Service.GatherExactly | backend/cv/recognizer.py:210-232 | the training set is exactly the prepared faces of all dataset files, each tagged with its directory's id |
| Service.ClampThreshold | backend/cv/recognizer.py:264 | an adaptive threshold lies in `[55, 130]` and equals the statistic when that lies there |
| Service.LabelThresholds | backend/cv/recognizer.py:252-267 | a threshold is computed for exactly the non-empty labels with samples, and each lies in `[55, 130]` |
| Service.Train | backend/cv/recognizer.py:240-276 | there is no model (and an error) exactly when the dataset yields no face; otherwise the model is trained on exactly the gathered faces, the counts are the distinct ids and the faces; thresholds change only to in-range values of registered labels; nothing else changes |
| Service.TrainSetsThresholds | backend/cv/recognizer.py:256-270 | after training every non-empty label with samples has its own in-range threshold |
| Service.Rebuild | backend/cv/recognizer.py:234-276 | the rebuilt state is valid, registers every dataset label with new ids numbered from `_next_label_id()`, keeps existing ids, has the exact inverse, fails exactly when the dataset yields no face, and otherwise trains on exactly the gathered faces, returns the number of distinct ids trained on and the number of faces, and changes the thresholds only to values in [55, 130] for registered labels |
| Service.Enrol | backend/cv/recognizer.py:283-291 | enrolment registers the label (a new label gets exactly `_next_label_id()`), sets its directory, keeps the state valid, and changes nothing else |
| Service.AddTrainingImages | backend/cv/recognizer.py:278-324 | every upload is counted once; the result is the enrolment of the label with its directory replaced by the batch saved with the corrected numbering, so the label is registered and nothing else changes |
| Service.AddTrainingImagesKeepsFiles | backend/cv/recognizer.py:279-281 | with the corrected numbering, enrolment never loses a file of the label's directory |
| Service.EnrolledLabelResolves | backend/cv/recognizer.py:234-291 | after enrolment and a rebuild the label resolves through the inverse map |
| Service.Prune | backend/cv/recognizer.py:439-466 | deletion drops the directory; a registered label leaves the registry and its metadata and `ids_to_labels` is rebuilt as the exact inverse; an unregistered label leaves registry, inverse and metadata alone; every other label and record is unchanged |
| Service.DeleteLabel | backend/cv/recognizer.py:438-479 | afterwards the label is neither on disk nor registered; the remaining labels are the other registered ones plus, when a rebuild runs, every remaining directory, all with their old ids; `ids_to_labels` is the exact inverse whenever it was rebuilt; metadata goes only for a registered label; `removed` says whether the directory existed; with no directory left the old model stays; otherwise the retrained model is exactly the gathered faces, the image count is its size, the label count is the number of distinct ids trained on, and counts are 0 exactly when no face remains; the global threshold never changes, the per-label thresholds change only on a successful retrain and then only to values in [55, 130] for registered labels |
| Service.Predictions | backend/cv/recognizer.py:352-356 | one classifier answer per filtered variant, in order, with that variant's box |
| Service.Predict | backend/cv/recognizer.py:326-426 | no model gives the not-trained error exactly; no usable variant gives the no-face answer (`Unknown` with no confidence or box) exactly; a recognised label is a value of `ids_to_labels`, is within the global threshold and carries its metadata; every score lies in `[0, 1]` and is positive exactly when the confidence is under the threshold |
| Service.AdaptiveCheckNeverRejects | backend/cv/recognizer.py:400-419 | the adaptive rejection never fires: an accepted id is recognised exactly when the inverse knows it, as `ids_to_labels[id]` |
| Service.RecognisedIsRegistered | backend/cv/recognizer.py:400-419 | a recognised label is registered and its id resolves back to it |
| Service.DeletedLabelNeverRecognised | backend/cv/recognizer.py:459-462 | after a label is deleted no image is recognised as it |

## Left out

- OpenCV and numpy are left out as foreign code. They are the function fields of `Vision.Cv`. This covers `cvtColor`, `equalizeHist`, the Haar cascade of `detect_faces`, resizing, CLAHE, blur, sharpening, `imdecode`, `imread`, `imwrite` and LBPH create/train/predict/read/write. The `try/except` blocks around equalisation and enhancement only choose between library results.
- Float arithmetic is left out: `float(np.mean)`, `float(np.std)`, float32 storage and the sum in `mean + 2 * std` are the opaque `Cv.spread`.
  - `int(p * w)` is exact truncation of the rational product. It is not the float product, which can round below an integer.
  - `w / float(h)` and the score division are exact reals.
- File and JSON I/O is left out:
  - the constructor;
  - `_load_settings`, `_load_labels`, `_load_metadata` and its title-only compatibility form, `_load_thresholds`;
  - every `_save_*`;
  - `ensure_dir`, `save_image_bgr`, `to_grayscale`, `resize_image`.
  
  The state is an in-memory record, and the model is present exactly when its file exists.
- `os.listdir` order is unspecified. The model lists the files of a label directory in ascending name order, which affects only the order of the training samples.
- Non-directory entries of the dataset directory and non-file entries of a label directory are not represented. Training skips them. The upload numbering does not: it scans every name of the label directory (lines 296-302), so a sub-directory named like a sample moves the numbering. The model cannot express that case.
- Labels are opaque keys, so path semantics are not modelled. An empty label, which the HTTP layer rejects before calling the service, would address the dataset directory itself.
- Upload failures are modelled only in part. A failed read is an `Upload` without data and is counted as skipped. A failed `imwrite` returns `False` without raising, and is not modelled: the source would still count that upload as processed.
- `shutil.rmtree` failure and its permission retry are not modelled. `removed` is whether the directory existed.
- The exception handler around the threshold computation (lines 271-273) is not modelled; the model never raises there.
- `_create_lbph` failing when the contrib modules are missing is not modelled.
- The regular expression's `\d` and `re.IGNORECASE` also accept non-ASCII digits and Unicode case variants. The model accepts only ASCII digits and ASCII case folding.
- `get_labels_with_counts` and the HTTP routes of `backend/main.py` are not part of this model.
- Concurrency is not modelled: each operation is a function from state to state.
- Service.AddTrainingImages: saves with the corrected `\d{4,}` numbering of `Samples.AddSamples`, not the `\d{4}` written at line 294 (see Findings). The code as written is `Samples.AddSamplesAsWritten`. It keeps every file whose name `\d{4}` reads (`Samples.AddSamplesAsWrittenKeepsMatched`), but it can overwrite a five-digit sample.
- Service.AddTrainingImagesKeepsFiles: holds for the corrected numbering only. As written, the source overwrites `image_10000.jpg` when `image_9999.jpg` is present (`Samples.AsWrittenOverwritesFiveDigitSample`).
- Service.Rebuild: states that trained ids belong to registered labels (`labels.Values`), not that they are keys of `ids_to_labels`. The latter follows from the exact-inverse clause.
- Service.Train: does not state that the label count is at most the image count.

## Findings

| source | as written | input that shows it | evidently intended | confidence | as-written member | corrected member |
|---|---|---|---|---|---|---|
| backend/cv/recognizer.py:294 | the index pattern `^image_(\d{4})\.jpg$` accepts exactly four digits, but line 318 writes `image_{idx:04d}.jpg`, which has five digits from index 10000 on | a label directory holding `image_9999.jpg` and `image_10000.jpg`: the five-digit name is invisible, numbering restarts at 10000, and the next saved face overwrites `image_10000.jpg` | new uploads never overwrite existing samples (the method's docstring), i.e. the pattern should accept `\d{4,}` | not executed | Samples.AsWrittenOverwritesFiveDigitSample | Samples.CorrectedKeepsFiveDigitSample |

=== FILE: faces.dfy ===
/** Face localisation in `_prepare_face` and `_prepare_face_variants`: pick
    the largest detected box, enlarge it by a padding, clip it to the image
    and crop. The detector and the normalisation after the crop are library
    calls (see `Vision.Cv`). */
module Faces {
  import opened Wrappers
  import opened Vision
  import IoUtils

  /** Padding of `_prepare_face`, in percent of the box size (`0.1`). */
  const SinglePadPercent: nat := 10

  /** Paddings of `_prepare_face_variants`, in percent (`[0.08, 0.12, 0.16]`). */
  const VariantPadPercents: seq<nat> := [8, 12, 16]

  function Area(b: Box): int
  {
    b.w * b.h
  }

  /** Index of the first box of largest area: the head of
      `sorted(faces, key=area, reverse=True)`, a stable sort. */
  function Largest(faces: seq<Box>): (r: nat)
    requires |faces| > 0
    ensures r < |faces|
    ensures forall i :: 0 <= i < |faces| ==> Area(faces[i]) <= Area(faces[r])
    ensures forall i :: 0 <= i < r ==> Area(faces[i]) < Area(faces[r])
  {
    if |faces| == 1 then 0
    else
      var k := Largest(faces[..|faces| - 1]);
      if Area(faces[|faces| - 1]) > Area(faces[k]) then |faces| - 1 else k
  }

  /** `int(p * extent)` for a fraction `p = percent / 100`: truncation toward zero. */
  function PadAmount(percent: nat, extent: int): (r: int)
    ensures extent >= 0 ==> 0 <= r && r * 100 <= percent * extent < (r + 1) * 100
    ensures extent < 0 ==> r <= 0
  {
    if extent >= 0 then percent * extent / 100 else -(percent * -extent / 100)
  }

  function Max(a: int, b: int): int { if a >= b then a else b }

  function Min(a: int, b: int): int { if a <= b then a else b }

  /** The box grown by `padX` on the left and right and `padY` above and below,
      then clipped to a `width` x `height` image. For a detected box inside the
      image and non-negative paddings, the result lies inside the image and
      covers the detected box; each side moves out by the full padding unless
      the image edge stops it there. */
  function PadAndClamp(b: Box, padX: int, padY: int, width: int, height: int): (r: Box)
    ensures 0 <= r.x && r.x + r.w <= width
    ensures 0 <= r.y && r.y + r.h <= height
    ensures Inside(b, width, height) && padX >= 0 && padY >= 0 ==>
      Inside(r, width, height) && Contains(r, b)
    ensures r.x == b.x - padX || (r.x == 0 && b.x - padX < 0)
    ensures r.y == b.y - padY || (r.y == 0 && b.y - padY < 0)
    ensures r.x + r.w == b.x + b.w + padX || (r.x + r.w == width && b.x + b.w + padX > width)
    ensures r.y + r.h == b.y + b.h + padY || (r.y + r.h == height && b.y + b.h + padY > height)
  {
    var x0 := Max(0, b.x - padX);
    var y0 := Max(0, b.y - padY);
    var x1 := Min(width, b.x + b.w + padX);
    var y1 := Min(height, b.y + b.h + padY);
    Box(x0, y0, x1 - x0, y1 - y0)
  }

  /** A normalised face crop and the box it was cut from. */
  datatype Variant = Variant(face: Gray, box: Box)

  /** Grey conversion and equalisation done before detection. */
  function Preprocess(cv: Cv, image: Color): Gray
  {
    cv.equalize(cv.toGray(image))
  }

  /** The crop of `gray` around `face` padded by `percent`, normalised. */
  function CropVariant(cv: Cv, gray: Gray, face: Box, percent: nat): Variant
  {
    var box := PadAndClamp(face, PadAmount(percent, face.w), PadAmount(percent, face.h), Width(gray), Height(gray));
    Variant(cv.normalize(IoUtils.Crop(gray, box)), box)
  }

  /** `_prepare_face`: no result when nothing is detected; otherwise the
      largest detection padded by 10%. */
  function PrepareFace(cv: Cv, image: Color): (r: Option<Variant>)
    ensures r.None? <==> |cv.detect(Preprocess(cv, image))| == 0
  {
    var gray := Preprocess(cv, image);
    var faces := cv.detect(gray);
    if |faces| == 0 then None
    else Some(CropVariant(cv, gray, faces[Largest(faces)], SinglePadPercent))
  }

  /** `_prepare_face_variants`: nothing when nothing is detected; otherwise one
      crop of the largest detection per padding, in the order 8%, 12%, 16%. */
  function PrepareFaceVariants(cv: Cv, image: Color): (r: seq<Variant>)
    ensures |r| == 0 <==> |cv.detect(Preprocess(cv, image))| == 0
    ensures |r| != 0 ==> |r| == |VariantPadPercents|
  {
    var gray := Preprocess(cv, image);
    var faces := cv.detect(gray);
    if |faces| == 0 then []
    else
      var face := faces[Largest(faces)];
      seq(|VariantPadPercents|, i requires 0 <= i < |VariantPadPercents| =>
        CropVariant(cv, gray, face, VariantPadPercents[i]))
  }

  /** Every crop the service takes of a detected face is a well-formed box
      inside the image that covers the detection, and cropping it yields
      exactly `h` rows of exactly `w` pixels. */
  lemma VariantBoxesInside(cv: Cv, image: Color)
    requires Rectangular(Preprocess(cv, image))
    requires DetectionsInside(cv, Preprocess(cv, image))
    ensures var gray := Preprocess(cv, image);
      var faces := cv.detect(gray);
      forall v :: v in PrepareFaceVariants(cv, image) || PrepareFace(cv, image) == Some(v) ==>
        && Inside(v.box, Width(gray), Height(gray))
        && Contains(v.box, faces[Largest(faces)])
        && var crop := IoUtils.Crop(gray, v.box);
           |crop| == v.box.h && forall i :: 0 <= i < |crop| ==> |crop[i]| == v.box.w
  {
    var gray := Preprocess(cv, image);
    var faces := cv.detect(gray);
    if |faces| > 0 {
      var face := faces[Largest(faces)];
      assert Inside(face, Width(gray), Height(gray));
    }
  }
}

=== FILE: io_utils.dfy ===
/** `crop_to_bbox` and the data-URL guard of `decode_data_url_to_image`
    (backend/cv/io_utils.py). */
module IoUtils {
  import opened Wrappers
  import opened Vision

  /* ---------- Python slicing ---------- */

  /** Where a slice bound `i` lands in a sequence of length `n`: negative bounds
      count from the end, and anything outside is clipped to `0..n`. */
  function SliceBound(i: int, n: nat): (r: nat)
    ensures r <= n
    ensures 0 <= i <= n ==> r == i
  {
    if i < 0 then (if i + n < 0 then 0 else i + n)
    else if i > n then n
    else i
  }

  /** `s[start:stop]` with Python's semantics (step 1). */
  function Slice<T>(s: seq<T>, start: int, stop: int): (r: seq<T>)
    ensures |r| <= |s|
    ensures 0 <= start <= stop <= |s| ==> |r| == stop - start
    ensures 0 <= start <= stop <= |s| ==> forall k :: 0 <= k < |r| ==> r[k] == s[start + k]
  {
    var lo := SliceBound(start, |s|);
    var hi := SliceBound(stop, |s|);
    if lo <= hi then s[lo..hi] else []
  }

  /** `image[y:y + h, x:x + w]`: the rows `y .. y+h-1` and, within each, the
      columns `x .. x+w-1`. For a box inside a rectangular image the crop is
      exactly `h` rows of exactly `w` pixels, each the matching input pixel. */
  function Crop<T>(image: Image<T>, b: Box): (r: Image<T>)
    ensures Rectangular(image) && Inside(b, Width(image), Height(image)) ==>
      |r| == b.h &&
      (forall i :: 0 <= i < b.h ==> |r[i]| == b.w) &&
      (forall i, j :: 0 <= i < b.h && 0 <= j < b.w ==> r[i][j] == image[b.y + i][b.x + j])
  {
    var rows := Slice(image, b.y, b.y + b.h);
    seq(|rows|, i requires 0 <= i < |rows| => Slice(rows[i], b.x, b.x + b.w))
  }

  /* ---------- data URLs ---------- */

  /** The request body's `image` field: only a JSON string can be a data URL. */
  datatype UrlInput = Str(s: string) | NotStr

  /** `s.split(",", 1)` when `s` holds a comma: the header before the first
      comma and the payload after it. */
  function SplitAtFirstComma(s: string): (r: Option<(string, string)>)
    ensures r.None? <==> ',' !in s
    ensures r.Some? ==> ',' !in r.value.0 && r.value.0 + [','] + r.value.1 == s
  {
    if |s| == 0 then None
    else if s[0] == ',' then Some(([], s[1..]))
    else match SplitAtFirstComma(s[1..])
      case None => None
      case Some((header, payload)) =>
        assert [s[0]] + header + [','] + payload == [s[0]] + s[1..];
        Some(([s[0]] + header, payload))
  }

  /** A string splits at most one way into a comma-free header, a comma and a payload. */
  lemma SplitUnique(h1: string, p1: string, h2: string, p2: string)
    requires ',' !in h1 && ',' !in h2
    requires h1 + [','] + p1 == h2 + [','] + p2
    ensures h1 == h2 && p1 == p2
  {
    var s := h1 + [','] + p1;
    assert forall i :: 0 <= i < |h1| ==> s[i] == h1[i] != ',';
    assert forall i :: 0 <= i < |h2| ==> s[i] == h2[i] != ',';
    assert s[|h1|] == ',' && s[|h2|] == ',';
    assert |h1| == |h2|;
    assert h1 == s[..|h1|] && h2 == s[..|h2|];
    assert p1 == s[|h1| + 1..] && p2 == s[|h2| + 1..];
  }

  /** `decode_data_url_to_image`: `None` for a non-string or a string without
      a comma; otherwise the decoder's verdict on everything after the first
      comma. `decodePayload` stands for base64 decoding followed by
      `cv2.imdecode`, with any exception they raise reported as `None`. */
  function DecodeDataUrl(input: UrlInput, decodePayload: string -> Option<Color>): (r: Option<Color>)
    ensures input.NotStr? ==> r.None?
    ensures input.Str? && ',' !in input.s ==> r.None?
    ensures input.Str? ==> forall header, payload ::
      ',' !in header && input.s == header + [','] + payload ==> r == decodePayload(payload)
  {
    match input
    case NotStr => None
    case Str(s) =>
      match SplitAtFirstComma(s)
      case None => None
      case Some((header, payload)) =>
        assert forall h, p :: ',' !in h && s == h + [','] + p ==> p == payload by {
          forall h, p | ',' !in h && s == h + [','] + p
            ensures p == payload
          {
            SplitUnique(h, p, header, payload);
          }
        }
        decodePayload(payload)
  }
}

=== FILE: metadata.dfy ===
/** Per-label descriptive records (`label_metadata`): `set_label_metadata`,
    `set_label_title` and `get_label_metadata`. */
module Metadata {
  import opened Wrappers
  import Text

  /** A JSON-ish field value as the service stores it. */
  datatype Value = Null | Str(s: string) | Int(n: int) | Flag(b: bool)

  /** One label's record: field name -> value. */
  type Record = map<string, Value>

  /** `label_metadata`: label -> record. */
  type Store = map<string, Record>

  /** Python's `str(v)`. */
  function Stringify(v: Value): string
  {
    match v
    case Null => "None"
    case Str(s) => s
    case Int(n) => if n < 0 then "-" + Text.Decimal(-n) else Text.Decimal(n)
    case Flag(b) => if b then "True" else "False"
  }

  /** `v is None or str(v) == ""`: a value the merge leaves out. */
  predicate Ignored(v: Value)
  {
    v.Null? || Stringify(v) == ""
  }

  /** Only `None` and the empty string are left out of a merge. */
  lemma IgnoredExactly(v: Value)
    ensures Ignored(v) <==> v == Null || v == Str("")
  {
    if v.Int? {
      assert |Stringify(v)| >= 1;
    }
  }

  /** `merged` is `base` updated with every field of `fields` that is not ignored. */
  ghost predicate MergedInto(base: Record, fields: Record, merged: Record)
  {
    && (forall k :: k in merged <==> k in base || (k in fields && !Ignored(fields[k])))
    && (forall k :: k in fields && !Ignored(fields[k]) ==> merged[k] == fields[k])
    && (forall k :: k in base && (k !in fields || Ignored(fields[k])) ==> merged[k] == base[k])
  }

  /** `base.update({k: v for k, v in metadata.items() if v is not None and str(v) != ""})`. */
  function Merge(base: Record, fields: Record): (r: Record)
    ensures MergedInto(base, fields, r)
  {
    base + map k | k in fields && !Ignored(fields[k]) :: fields[k]
  }

  /** `set_label_metadata`: nothing happens for an empty label; otherwise the
      label's record (empty if it had none) is merged with the new fields, and
      every other label's record is untouched. */
  function SetLabelMetadata(store: Store, name: string, fields: Record): (r: Store)
    ensures name == "" ==> r == store
    ensures name != "" ==> name in r && MergedInto(Get(store, name).GetOr(map[]), fields, r[name])
    ensures forall l :: l != name ==> (l in r <==> l in store) && (l in r ==> r[l] == store[l])
  {
    if name == "" then store
    else store[name := Merge(Get(store, name).GetOr(map[]), fields)]
  }

  /** `set_label_title`: with a title and a non-empty label, the record's
      `"title"` field becomes that title (even an empty one) and nothing else
      changes; otherwise nothing changes. */
  function SetLabelTitle(store: Store, name: string, title: Option<string>): (r: Store)
    ensures title.None? || name == "" ==> r == store
    ensures title.Some? && name != "" ==>
      name in r && "title" in r[name] && r[name]["title"] == Str(title.value) &&
      forall k :: k != "title" ==>
        (k in r[name] <==> name in store && k in store[name]) &&
        (k in r[name] ==> r[name][k] == store[name][k])
    ensures forall l :: l != name ==> (l in r <==> l in store) && (l in r ==> r[l] == store[l])
  {
    match title
    case None => store
    case Some(t) =>
      if name == "" then store
      else store[name := Get(store, name).GetOr(map[])["title" := Str(t)]]
  }

  /** `get_label_metadata`: `None` for an empty label, otherwise the label's record if any. */
  function GetLabelMetadata(store: Store, name: string): (r: Option<Record>)
    ensures r.Some? <==> name != "" && name in store
    ensures r.Some? ==> r.value == store[name]
  {
    if name == "" then None else Get(store, name)
  }

  /** The two setters disagree on an empty title: `set_label_title` stores it,
      `set_label_metadata` leaves the previous title in place. */
  lemma EmptyTitleOnlyStoredByTitleSetter(store: Store, name: string)
    requires name != ""
    ensures SetLabelTitle(store, name, Some(""))[name]["title"] == Str("")
    ensures var r := SetLabelMetadata(store, name, map["title" := Str("")]);
      ("title" in r[name] <==> name in store && "title" in store[name]) &&
      ("title" in r[name] ==> r[name]["title"] == store[name]["title"])
  {
    assert Ignored(Str(""));
  }
}

=== FILE: registry.dfy ===
/** The label registry of `FaceRecognizerService`: `labels_to_ids`, its
    inverse `ids_to_labels`, fresh-id allocation (`_next_label_id`), the
    registration done during enrollment and dataset collection, and the
    removal done when a label is deleted. */
module Registry {
  import opened Wrappers
  import Sets

  /** `labels_to_ids`: label -> numeric id used by the classifier. */
  type Labels = map<string, int>

  /** `ids_to_labels`: numeric id -> label. */
  type Ids = map<int, string>

  /** No two keys share a value. */
  predicate Injective<K, V(==)>(m: map<K, V>)
  {
    forall a, b :: a in m && b in m && m[a] == m[b] ==> a == b
  }

  /** Every entry of `ids` is the reverse of an entry of `labels`. */
  predicate Resolves(ids: Ids, labels: Labels)
  {
    forall id :: id in ids ==> ids[id] in labels && labels[ids[id]] == id
  }

  /** The largest id in use. */
  function MaxId(labels: Labels): (r: int)
    requires |labels| > 0
    ensures r in labels.Values
    ensures forall l :: l in labels ==> labels[l] <= r
  {
    var l :| l in labels;
    assert labels[l] in labels.Values;
    assert forall k :: k in labels ==> labels[k] in labels.Values;
    Sets.Max(labels.Values)
  }

  /** `_next_label_id`: 0 for an empty registry, otherwise one more than the
      largest id, so it differs from, and exceeds, every id in use. */
  function NextLabelId(labels: Labels): (r: int)
    ensures |labels| == 0 ==> r == 0
    ensures |labels| > 0 ==> r - 1 in labels.Values
    ensures forall l :: l in labels ==> labels[l] < r
  {
    if |labels| == 0 then 0 else MaxId(labels) + 1
  }

  /** `if label not in labels_to_ids: labels_to_ids[label] = _next_label_id()`. */
  function Ensure(labels: Labels, name: string): (r: Labels)
    ensures forall l :: l in r <==> l in labels || l == name
    ensures forall l :: l in labels ==> r[l] == labels[l]
    ensures name !in labels ==> r[name] == NextLabelId(labels)
    ensures name !in labels ==> forall l :: l in labels ==> labels[l] < r[name]
    ensures name !in labels && |labels| == 0 ==> r[name] == 0
    ensures Injective(labels) ==> Injective(r)
  {
    if name in labels then labels else labels[name := NextLabelId(labels)]
  }

  /** Registering in turn every label of `order` (as `_collect_dataset` does
      for the sorted dataset directories). */
  function EnsureAll(labels: Labels, order: seq<string>): (r: Labels)
    ensures forall l :: l in r <==> l in labels || l in order
    ensures forall l :: l in labels ==> r[l] == labels[l]
    ensures forall l, k :: l in r && l !in labels && k in labels ==> labels[k] < r[l]
    ensures Injective(labels) ==> Injective(r)
    decreases |order|
  {
    if |order| == 0 then labels
    else
      var next := Ensure(labels, order[0]);
      var r := EnsureAll(next, order[1..]);
      assert forall l :: l in order <==> l == order[0] || l in order[1..];
      assert forall l, k :: l in r && l !in labels && k in labels ==> labels[k] < r[l] by {
        forall l, k | l in r && l !in labels && k in labels
          ensures labels[k] < r[l]
        {
          assert next[k] == labels[k];
          if l in next {
            assert l == order[0];
          }
        }
      }
      r
  }

  /** The labels of `order` not yet in `known`, each once, in the order of
      their first appearance: the labels `EnsureAll` gives new ids. */
  function Fresh(known: set<string>, order: seq<string>): (r: seq<string>)
    ensures forall l :: l in r <==> l in order && l !in known
    decreases |order|
  {
    if |order| == 0 then []
    else
      assert forall l :: l in order <==> l == order[0] || l in order[1..];
      if order[0] in known then Fresh(known, order[1..])
      else [order[0]] + Fresh(known + {order[0]}, order[1..])
  }

  /** Registering a label that is new takes the id right after the largest. */
  lemma NextAfterEnsure(labels: Labels, name: string)
    requires name !in labels
    ensures NextLabelId(Ensure(labels, name)) == NextLabelId(labels) + 1
  {
    var next := Ensure(labels, name);
    var n := NextLabelId(labels);
    var m := NextLabelId(next);
    assert next[name] == n;
    var l :| l in next && next[l] == m - 1;
    assert next[l] <= n;
  }

  /** The first label of `order`, when new, heads the fresh labels; the
      rest are those fresh after it is registered. */
  lemma FreshAfterEnsure(labels: Labels, order: seq<string>)
    requires |order| > 0 && order[0] !in labels
    ensures Fresh(labels.Keys, order) == [order[0]] + Fresh(Ensure(labels, order[0]).Keys, order[1..])
  {
    assert Ensure(labels, order[0]).Keys == labels.Keys + {order[0]};
  }

  /** `_collect_dataset` numbers the new labels consecutively from
      `_next_label_id()`, in the order it meets them: the i-th new label of
      `order` gets `NextLabelId(labels) + i`. */
  lemma {:induction false} EnsureAllNumbersFresh(labels: Labels, order: seq<string>)
    ensures forall i :: 0 <= i < |Fresh(labels.Keys, order)| ==>
      Fresh(labels.Keys, order)[i] in EnsureAll(labels, order) &&
      EnsureAll(labels, order)[Fresh(labels.Keys, order)[i]] == NextLabelId(labels) + i
    decreases |order|
  {
    if |order| > 0 {
      var o := order[0];
      var next := Ensure(labels, o);
      var r := EnsureAll(labels, order);
      assert r == EnsureAll(next, order[1..]);
      EnsureAllNumbersFresh(next, order[1..]);
      if o in labels {
        assert next == labels;
        assert Fresh(labels.Keys, order) == Fresh(labels.Keys, order[1..]);
      } else {
        NextAfterEnsure(labels, o);
        FreshAfterEnsure(labels, order);
        var rest := Fresh(next.Keys, order[1..]);
        var added := Fresh(labels.Keys, order);
        assert o in next && r[o] == NextLabelId(labels);
        forall i | 0 <= i < |added|
          ensures added[i] in r && r[added[i]] == NextLabelId(labels) + i
        {
          if i > 0 {
            assert added[i] == rest[i - 1];
          }
        }
      }
    }
  }

  /** `{v: k for k, v in labels_to_ids.items()}` for an injective map. */
  function Inverse<K, V(==)>(m: map<K, V>): (r: map<V, K>)
    requires Injective(m)
    ensures forall k :: k in m ==> m[k] in r && r[m[k]] == k
    ensures forall v :: v in r ==> r[v] in m && m[r[v]] == v
    ensures Injective(r)
  {
    map k | k in m :: m[k] := k
  }

  /** Inverting twice gives back the registry. */
  lemma InverseRoundTrip<K, V>(m: map<K, V>)
    requires Injective(m)
    ensures Inverse(Inverse(m)) == m
  {
    var inv := Inverse(m);
    var back := Inverse(inv);
    assert back.Keys == m.Keys by {
      forall k | k in m ensures k in back {
        assert m[k] in inv && inv[m[k]] == k;
      }
      forall k | k in back ensures k in m {
        var v :| v in inv && inv[v] == k;
      }
    }
    forall k | k in m ensures back[k] == m[k] {
      assert inv[m[k]] == k;
    }
  }

  /** The rebuilt inverse resolves every id back to its label. */
  lemma InverseResolves(labels: Labels)
    requires Injective(labels)
    ensures Resolves(Inverse(labels), labels)
  {
  }

  /** `del labels_to_ids[label]` when the label is registered. */
  function Remove(labels: Labels, name: string): (r: Labels)
    ensures name !in r
    ensures forall l :: l in r <==> l in labels && l != name
    ensures forall l :: l in r ==> r[l] == labels[l]
    ensures Injective(labels) ==> Injective(r)
  {
    labels - {name}
  }

  /** After removing a registered label, the rebuilt inverse is the old one
      without that label's id: every other id still resolves as before. */
  lemma InverseAfterRemove(labels: Labels, name: string)
    requires Injective(labels)
    requires name in labels
    ensures Inverse(Remove(labels, name)) == Inverse(labels) - {labels[name]}
  {
    var after := Inverse(Remove(labels, name));
    var before := Inverse(labels) - {labels[name]};
    forall id | id in before ensures id in after && after[id] == before[id] {
      var l := Inverse(labels)[id];
      assert l != name;
    }
  }
}

=== FILE: samples.dfy ===
/** Sample numbering in `add_training_images_for_label`: a label directory
    holds files named `image_NNNN.jpg`; new uploads continue the numbering
    after the highest index found, and each upload is counted as processed
    (saved) or skipped. */
module Samples {
  import opened Wrappers
  import Sets
  import opened Vision
  import Text
  import Faces

  /* ---------- a label directory ---------- */

  /** A label directory: file name -> file content. Sub-directories, which
      the service skips, are not represented. */
  type Dir = map<string, Bytes>

  /* ---------- the name pattern ---------- */

  /** How many digits the name pattern accepts: the source's `\d{4}`, or
      `\d{4,}`, which also accepts the names the writer produces from 10000 on. */
  datatype DigitRule = ExactlyFour | FourOrMore {
    predicate Accepts(count: nat)
    {
      match this
      case ExactlyFour => count == 4
      case FourOrMore => count >= 4
    }
  }

  /** Python's `$` also matches just before a final newline: exactly one
      final newline is dropped, and a string without one is kept. */
  function StripFinalNewline(s: string): (r: string)
    ensures |s| > 0 && s[|s| - 1] == '\n' ==> s == r + "\n"
    ensures !(|s| > 0 && s[|s| - 1] == '\n') ==> r == s
  {
    if |s| > 0 && s[|s| - 1] == '\n' then s[..|s| - 1] else s
  }

  /** The index `re.match(r"^image_(\d...)\.jpg$", name, re.IGNORECASE)` reads
      from a file name, or `None` when the name does not match. */
  function SampleIndex(name: string, rule: DigitRule): (r: Option<nat>)
    ensures r.Some? ==> |StripFinalNewline(name)| >= 10 && rule.Accepts(|StripFinalNewline(name)| - 10)
    ensures r.Some? && rule == ExactlyFour ==> r.value < 10000
  {
    var body := StripFinalNewline(name);
    if |body| >= 10
      && Text.EqualsIgnoringCase(body[..6], "image_")
      && Text.EqualsIgnoringCase(body[|body| - 4..], ".jpg")
      && Text.AllDigits(body[6..|body| - 4])
      && rule.Accepts(|body| - 10)
    then
      Text.ValueBelowPow10(body[6..|body| - 4]);
      assert Text.Pow10(4) == 10000;
      Some(Text.Value(body[6..|body| - 4]))
    else None
  }

  /** `f"image_{idx:04d}.jpg"`. */
  function SampleName(idx: nat): (r: string)
    ensures |r| >= 14 && r[..6] == "image_" && r[|r| - 4..] == ".jpg" && Text.AllDigits(r[6..|r| - 4])
    ensures |r| == 14 <==> idx < 10000
  {
    var digits := Text.Format(idx, 4);
    Text.DecimalLength(idx, 4);
    assert Text.Pow10(4) == 10000;
    var r := "image_" + digits + ".jpg";
    assert r[6..|r| - 4] == digits;
    r
  }

  /** A concatenation of three strings splits back into its parts. */
  lemma SplitThree(a: string, b: string, c: string)
    ensures var s := a + b + c;
      s[..|a|] == a && s[|a|..|s| - |c|] == b && s[|s| - |c|..] == c
  {
  }

  /** The literal parts of the name are already lower case. */
  lemma LiteralsFold()
    ensures Text.EqualsIgnoringCase("image_", "image_")
    ensures Text.EqualsIgnoringCase(".jpg", ".jpg")
  {
  }

  /** A name of the writer's shape parses to the digits between prefix and
      suffix whenever the rule accepts their count. */
  lemma ParseSampleName(digits: string, rule: DigitRule)
    requires Text.AllDigits(digits)
    ensures SampleIndex("image_" + digits + ".jpg", rule) ==
      if rule.Accepts(|digits|) then Some(Text.Value(digits)) else None
  {
    var name := "image_" + digits + ".jpg";
    SplitThree("image_", digits, ".jpg");
    LiteralsFold();
    assert name[|name| - 1] == 'g';
    var body := StripFinalNewline(name);
    assert body == name;
    assert |body| >= 10;
    assert Text.EqualsIgnoringCase(body[..6], "image_");
    assert Text.EqualsIgnoringCase(body[|body| - 4..], ".jpg");
    assert body[6..|body| - 4] == digits;
  }

  /** The pattern reads back the index of a name the writer produced: always
      when it accepts four or more digits, and with exactly four digits only
      below 10000. */
  lemma SampleNameIndex(idx: nat)
    ensures SampleIndex(SampleName(idx), FourOrMore) == Some(idx)
    ensures SampleIndex(SampleName(idx), ExactlyFour) == if idx < 10000 then Some(idx) else None
  {
    var digits := Text.Format(idx, 4);
    ParseSampleName(digits, FourOrMore);
    ParseSampleName(digits, ExactlyFour);
    Text.FormatRoundTrip(idx, 4);
    Text.DecimalLength(idx, 4);
    assert Text.Pow10(4) == 10000;
  }

  /** `$` lets a name carry one final newline: the name with it appended
      reads as the name without it, while a second newline does not match. */
  lemma FinalNewlineIgnored(name: string, rule: DigitRule)
    requires |name| == 0 || name[|name| - 1] != '\n'
    ensures SampleIndex(name + "\n", rule) == SampleIndex(name, rule)
    ensures SampleIndex(name + "\n\n", rule).None?
  {
    var once := name + "\n";
    assert once[..|once| - 1] == name;
    assert StripFinalNewline(once) == name;
    var twice := once + "\n";
    assert twice[..|twice| - 1] == once;
    NewlineEndedNeverMatches(once, rule);
  }

  /** A body still ending in a newline cannot end in `.jpg`. */
  lemma NewlineEndedNeverMatches(body: string, rule: DigitRule)
    requires |body| > 0 && body[|body| - 1] == '\n'
    ensures SampleIndex(body + "\n", rule).None?
  {
    var twice := body + "\n";
    assert twice[..|twice| - 1] == body;
    if |body| >= 10 {
      var suffix := body[|body| - 4..];
      assert suffix[3] == '\n';
    }
  }

  /** Different indices give different names. */
  lemma SampleNamesDistinct()
    ensures DistinctNaming(SampleName)
  {
    forall a, b | SampleName(a) == SampleName(b)
      ensures a == b
    {
      SampleNameIndex(a);
      SampleNameIndex(b);
    }
  }

  /** The name pattern as a parser. */
  function Pattern(rule: DigitRule): string -> Option<nat>
  {
    name => SampleIndex(name, rule)
  }

  /** Every index `parse` reads from a file name in the directory. */
  function Found(dir: Dir, parse: string -> Option<nat>): (r: set<nat>)
    ensures forall n :: n in dir && parse(n).Some? ==> parse(n).value in r
    ensures forall k :: k in r ==> exists n :: n in dir && parse(n) == Some(k)
  {
    set n | n in dir && parse(n).Some? :: parse(n).value
  }

  /** The first index of a new batch, `max_idx + 1` after
      `max_idx = max(max_idx, found)` from `max_idx = -1`: above every index
      read from a file name, and, when positive, one more than one of them. */
  function FirstIndex(dir: Dir, parse: string -> Option<nat>): (r: nat)
    ensures forall n :: n in dir && parse(n).Some? ==> parse(n).value < r
    ensures r > 0 ==> exists n :: n in dir && parse(n) == Some(r - 1)
  {
    var found := Found(dir, parse);
    if found == {} then 0
    else
      var m := Sets.Max(found);
      assert m in found;
      m + 1
  }

  /* ---------- saving a batch of uploads ---------- */

  /** One uploaded file; `None` when reading it raised. */
  datatype Upload = Upload(data: Option<Bytes>)

  /** Decoding, then `_prepare_face`: the normalised face to save, or `None`
      when the upload is unreadable, undecodable or shows no face. */
  function PrepareUpload(cv: Cv, up: Upload): Option<Gray>
  {
    match up.data
    case None => None
    case Some(bytes) =>
      match cv.decode(bytes)
      case None => None
      case Some(image) =>
        match Faces.PrepareFace(cv, image)
        case None => None
        case Some(v) => Some(v.face)
  }

  /** The outcome of preparing each upload, in upload order. */
  function Attempts(cv: Cv, uploads: seq<Upload>): (r: seq<Option<Gray>>)
    ensures |r| == |uploads|
    ensures forall i :: 0 <= i < |uploads| ==> r[i] == PrepareUpload(cv, uploads[i])
  {
    seq(|uploads|, i requires 0 <= i < |uploads| => PrepareUpload(cv, uploads[i]))
  }

  /** The faces that were prepared successfully, in order. */
  function Saved(attempts: seq<Option<Gray>>): (r: seq<Gray>)
    ensures |r| <= |attempts|
  {
    if |attempts| == 0 then []
    else
      match attempts[0]
      case None => Saved(attempts[1..])
      case Some(face) => [face] + Saved(attempts[1..])
  }

  /** The saved faces are exactly the faces that were prepared. */
  lemma {:induction false} SavedExactly(attempts: seq<Option<Gray>>, g: Gray)
    ensures g in Saved(attempts) <==> Some(g) in attempts
    decreases |attempts|
  {
    if |attempts| > 0 {
      SavedExactly(attempts[1..], g);
      assert attempts == [attempts[0]] + attempts[1..];
    }
  }

  datatype Batch = Batch(dir: Dir, processed: nat, skipped: nat)

  /** Distinct indices are given distinct file names. */
  ghost predicate DistinctNaming(nameOf: nat -> string)
  {
    forall a, b :: nameOf(a) == nameOf(b) ==> a == b
  }

  /** The upload loop: every prepared face is written (`cv2.imwrite`) under
      the next index, which then advances; everything else is skipped. Each
      upload is counted exactly once, as processed when its face was saved.
      The service names files with `SampleName`; the lemmas below say where
      each face lands and what else changes. */
  function SaveUploads(encode: Gray -> Bytes, dir: Dir, nameOf: nat -> string, next: nat,
                       attempts: seq<Option<Gray>>): (r: Batch)
    ensures r.processed + r.skipped == |attempts|
    ensures r.processed == |Saved(attempts)|
    decreases |attempts|
  {
    if |attempts| == 0 then Batch(dir, 0, 0)
    else
      match attempts[0]
      case None =>
        var b := SaveUploads(encode, dir, nameOf, next, attempts[1..]);
        Batch(b.dir, b.processed, b.skipped + 1)
      case Some(face) =>
        var b := SaveUploads(encode, dir[nameOf(next) := encode(face)], nameOf, next + 1, attempts[1..]);
        Batch(b.dir, b.processed + 1, b.skipped)
  }

  /** A name the batch does not use keeps its file, or its absence. */
  lemma {:induction false} SaveUploadsKeeps(encode: Gray -> Bytes, dir: Dir, nameOf: nat -> string, next: nat,
                                            attempts: seq<Option<Gray>>, n: string)
    requires forall k :: next <= k < next + |Saved(attempts)| ==> n != nameOf(k)
    ensures var r := SaveUploads(encode, dir, nameOf, next, attempts);
      (n in r.dir <==> n in dir) && (n in dir ==> r.dir[n] == dir[n])
    decreases |attempts|
  {
    if |attempts| > 0 {
      match attempts[0]
      case None =>
        SaveUploadsKeeps(encode, dir, nameOf, next, attempts[1..], n);
      case Some(face) =>
        assert Saved(attempts) == [face] + Saved(attempts[1..]);
        assert n != nameOf(next);
        SaveUploadsKeeps(encode, dir[nameOf(next) := encode(face)], nameOf, next + 1, attempts[1..], n);
    }
  }

  /** The j-th saved face is stored under the j-th name from `next` on. */
  lemma {:induction false} SaveUploadsStores(encode: Gray -> Bytes, dir: Dir, nameOf: nat -> string, next: nat,
                                             attempts: seq<Option<Gray>>, j: nat)
    requires DistinctNaming(nameOf)
    requires j < |Saved(attempts)|
    ensures var r := SaveUploads(encode, dir, nameOf, next, attempts);
      nameOf(next + j) in r.dir && r.dir[nameOf(next + j)] == encode(Saved(attempts)[j])
    decreases |attempts|
  {
    match attempts[0]
    case None =>
      SaveUploadsStores(encode, dir, nameOf, next, attempts[1..], j);
    case Some(face) =>
      assert Saved(attempts) == [face] + Saved(attempts[1..]);
      var written := dir[nameOf(next) := encode(face)];
      if j == 0 {
        SaveUploadsKeeps(encode, written, nameOf, next + 1, attempts[1..], nameOf(next));
      } else {
        SaveUploadsStores(encode, written, nameOf, next + 1, attempts[1..], j - 1);
      }
  }

  /** A name the batch adds is one of the names from `next` on. */
  lemma {:induction false} SaveUploadsAdds(encode: Gray -> Bytes, dir: Dir, nameOf: nat -> string, next: nat,
                                           attempts: seq<Option<Gray>>, n: string)
    requires n in SaveUploads(encode, dir, nameOf, next, attempts).dir && n !in dir
    ensures exists k :: next <= k < next + |Saved(attempts)| && n == nameOf(k)
    decreases |attempts|
  {
    match attempts[0]
    case None =>
      SaveUploadsAdds(encode, dir, nameOf, next, attempts[1..], n);
    case Some(face) =>
      assert Saved(attempts) == [face] + Saved(attempts[1..]);
      var written := dir[nameOf(next) := encode(face)];
      if n != nameOf(next) {
        SaveUploadsAdds(encode, written, nameOf, next + 1, attempts[1..], n);
      }
  }

  /** `add_training_images_for_label` on one label directory, with the name
      pattern widened to `\d{4,}`: numbering continues after the largest
      index of any sample file. */
  function AddSamples(cv: Cv, dir: Dir, uploads: seq<Upload>): (r: Batch)
    ensures r.processed + r.skipped == |uploads|
    ensures r.processed == |Saved(Attempts(cv, uploads))|
  {
    SaveUploads(cv.encode, dir, SampleName, FirstIndex(dir, Pattern(FourOrMore)), Attempts(cv, uploads))
  }

  /** No existing file is overwritten or removed by the corrected upload. */
  lemma AddSamplesKeepsExisting(cv: Cv, dir: Dir, uploads: seq<Upload>, n: string)
    requires n in dir
    ensures var r := AddSamples(cv, dir, uploads);
      n in r.dir && r.dir[n] == dir[n]
  {
    var start := FirstIndex(dir, Pattern(FourOrMore));
    forall k | start <= k
      ensures n != SampleName(k)
    {
      SampleNameIndex(k);
      assert Pattern(FourOrMore)(SampleName(k)) == Some(k);
    }
    SaveUploadsKeeps(cv.encode, dir, SampleName, start, Attempts(cv, uploads), n);
  }

  /** The corrected upload stores the j-th prepared face as sample
      `FirstIndex + j`. */
  lemma AddSamplesStores(cv: Cv, dir: Dir, uploads: seq<Upload>, j: nat)
    requires j < AddSamples(cv, dir, uploads).processed
    ensures var r := AddSamples(cv, dir, uploads);
      var name := SampleName(FirstIndex(dir, Pattern(FourOrMore)) + j);
      name in r.dir && r.dir[name] == cv.encode(Saved(Attempts(cv, uploads))[j])
  {
    SampleNamesDistinct();
    SaveUploadsStores(cv.encode, dir, SampleName, FirstIndex(dir, Pattern(FourOrMore)), Attempts(cv, uploads), j);
  }

  /** The corrected upload adds no file other than the batch's sample names. */
  lemma AddSamplesOnlyAddsSamples(cv: Cv, dir: Dir, uploads: seq<Upload>, n: string)
    requires n in AddSamples(cv, dir, uploads).dir && n !in dir
    ensures var start := FirstIndex(dir, Pattern(FourOrMore));
      var count := AddSamples(cv, dir, uploads).processed;
      exists k :: start <= k < start + count && n == SampleName(k)
  {
    SaveUploadsAdds(cv.encode, dir, SampleName, FirstIndex(dir, Pattern(FourOrMore)), Attempts(cv, uploads), n);
  }

  /** `add_training_images_for_label` as written, with the pattern `\d{4}`. */
  function AddSamplesAsWritten(cv: Cv, dir: Dir, uploads: seq<Upload>): (r: Batch)
    ensures r.processed + r.skipped == |uploads|
    ensures r.processed == |Saved(Attempts(cv, uploads))|
  {
    SaveUploads(cv.encode, dir, SampleName, FirstIndex(dir, Pattern(ExactlyFour)), Attempts(cv, uploads))
  }

  /** What the upload as written does keep: a file whose name `\d{4}`
      reads is neither overwritten nor removed. Only names it cannot read,
      such as five-digit samples, are at risk. */
  lemma AddSamplesAsWrittenKeepsMatched(cv: Cv, dir: Dir, uploads: seq<Upload>, n: string)
    requires n in dir && Pattern(ExactlyFour)(n).Some?
    ensures var r := AddSamplesAsWritten(cv, dir, uploads);
      n in r.dir && r.dir[n] == dir[n]
  {
    var start := FirstIndex(dir, Pattern(ExactlyFour));
    forall k | start <= k
      ensures n != SampleName(k)
    {
      SampleNameIndex(k);
    }
    SaveUploadsKeeps(cv.encode, dir, SampleName, start, Attempts(cv, uploads), n);
  }

  /** A batch with one saved face stores it under the first name. */
  lemma SaveSingle(encode: Gray -> Bytes, dir: Dir, nameOf: nat -> string, next: nat, attempts: seq<Option<Gray>>)
    requires DistinctNaming(nameOf)
    requires |Saved(attempts)| == 1
    ensures var r := SaveUploads(encode, dir, nameOf, next, attempts);
      r.processed == 1 && nameOf(next) in r.dir && r.dir[nameOf(next)] == encode(Saved(attempts)[0])
  {
    SaveUploadsStores(encode, dir, nameOf, next, attempts, 0);
  }

  /** In a directory of two files of which only one matches, numbering
      continues right after the matching one. */
  lemma NextAfterOnlyMatch(a: string, b: string, va: Bytes, vb: Bytes, parse: string -> Option<nat>, k: nat)
    requires parse(a) == Some(k) && parse(b) == None
    ensures FirstIndex(map[a := va, b := vb], parse) == k + 1
  {
    var dir := map[a := va, b := vb];
    assert a in dir;
  }

  /** With samples `last` = 9999 and 10000 present, the five-digit name is
      invisible to `\d{4}`, numbering restarts at 10000, and the next face
      saved replaces the content of `image_10000.jpg`. */
  lemma AsWrittenOverwritesFiveDigitSample(cv: Cv, up: Upload, old9999: Bytes, old10000: Bytes, last: nat)
    requires last == 9999
    requires PrepareUpload(cv, up).Some?
    requires cv.encode(PrepareUpload(cv, up).value) != old10000
    ensures var dir := map[SampleName(last) := old9999, SampleName(last + 1) := old10000];
      var r := AddSamplesAsWritten(cv, dir, [up]);
      r.processed == 1 && SampleName(last + 1) in r.dir && r.dir[SampleName(last + 1)] != old10000
  {
    var dir := map[SampleName(last) := old9999, SampleName(last + 1) := old10000];
    SampleNameIndex(last);
    SampleNameIndex(last + 1);
    NextAfterOnlyMatch(SampleName(last), SampleName(last + 1), old9999, old10000, Pattern(ExactlyFour), last);
    var start := FirstIndex(dir, Pattern(ExactlyFour));
    var attempts := Attempts(cv, [up]);
    assert Saved(attempts) == [PrepareUpload(cv, up).value];
    SampleNamesDistinct();
    SaveSingle(cv.encode, dir, SampleName, start, attempts);
  }

  /** With the corrected pattern the same upload goes to a fresh name and
      leaves both existing samples as they were. */
  lemma CorrectedKeepsFiveDigitSample(cv: Cv, up: Upload, old9999: Bytes, old10000: Bytes, last: nat)
    requires last == 9999
    ensures var dir := map[SampleName(last) := old9999, SampleName(last + 1) := old10000];
      var r := AddSamples(cv, dir, [up]);
      SampleName(last + 1) in r.dir && r.dir[SampleName(last + 1)] == old10000 &&
      SampleName(last) in r.dir && r.dir[SampleName(last)] == old9999
  {
    SampleNameIndex(last);
    SampleNameIndex(last + 1);
    assert SampleName(last) != SampleName(last + 1);
    var dir := map[SampleName(last) := old9999, SampleName(last + 1) := old10000];
    AddSamplesKeepsExisting(cv, dir, [up], SampleName(last));
    AddSamplesKeepsExisting(cv, dir, [up], SampleName(last + 1));
  }
}

=== FILE: service.dfy ===
/** `FaceRecognizerService` as a state machine: the label registry, the label
    metadata, the per-label thresholds, the dataset directory and the trained
    model, and the four operations that change or read them —
    `rebuild_from_dataset` (with `_collect_dataset`),
    `add_training_images_for_label`, `delete_label_and_retrain` and
    `predict_from_bgr_image`. Files on disk are maps; the JSON files the
    service mirrors its state into are not modelled. */
module Service {
  import opened Wrappers
  import opened Vision
  import Text
  import Registry
  import Metadata
  import Faces
  import Samples
  import Voting

  /* ---------- state ---------- */

  /** `DATASET_DIR`: label directory name -> that directory's files. */
  type Dataset = map<string, Samples.Dir>

  /** What the service keeps. `model` is the training set the LBPH model was
      last trained on, or `None` when no model file exists; `threshold` is the
      `confidence_threshold` setting. */
  datatype State = State(
    labels: Registry.Labels,
    ids: Registry.Ids,
    metadata: Metadata.Store,
    thresholds: map<string, real>,
    dataset: Dataset,
    model: Option<seq<Sample>>,
    threshold: real)

  /** The registry gives distinct labels distinct ids, and every id the
      inverse map knows resolves to a registered label with that id. (The
      inverse may lag behind: enrolment registers a label without adding it.) */
  predicate Valid(s: State)
  {
    Registry.Injective(s.labels) && Registry.Resolves(s.ids, s.labels)
  }

  /* ---------- collecting the dataset ---------- */

  /** `os.listdir`, taken in ascending name order. */
  function Listing(dir: Samples.Dir): (r: seq<string>)
    ensures forall n :: n in r <==> n in dir
  {
    Text.Sorted(dir.Keys)
  }

  /** The face `_collect_dataset` takes from one file: `cv2.imread`, then
      `_prepare_face`; the same preparation an uploaded file goes through. */
  function FileFace(cv: Cv, content: Bytes): Option<Gray>
  {
    Samples.PrepareUpload(cv, Samples.Upload(Some(content)))
  }

  /** The samples of the files `names` of one label directory, tagged `id`. */
  function DirSamples(cv: Cv, dir: Samples.Dir, names: seq<string>, id: int): (r: seq<Sample>)
    requires forall n :: n in names ==> n in dir
    ensures |r| <= |names|
    ensures forall i :: 0 <= i < |r| ==> r[i].id == id
    decreases |names|
  {
    if |names| == 0 then []
    else
      var rest := DirSamples(cv, dir, names[1..], id);
      match FileFace(cv, dir[names[0]])
      case None => rest
      case Some(face) => [Sample(face, id)] + rest
  }

  /** A sample comes from a directory exactly when it carries the directory's
      id and is the face of one of the listed files. */
  lemma {:induction false} DirSamplesExactly(cv: Cv, dir: Samples.Dir, names: seq<string>, id: int, x: Sample)
    requires forall n :: n in names ==> n in dir
    ensures x in DirSamples(cv, dir, names, id) <==>
      x.id == id && exists n :: n in names && FileFace(cv, dir[n]) == Some(x.face)
    decreases |names|
  {
    if |names| > 0 {
      DirSamplesExactly(cv, dir, names[1..], id, x);
      assert forall n :: n in names <==> n == names[0] || n in names[1..];
    }
  }

  /** The samples of the label directories `order`, one directory after the
      other, each tagged with its label's id in `labels`. */
  function CollectFrom(cv: Cv, dataset: Dataset, order: seq<string>, labels: Registry.Labels): (r: seq<Sample>)
    requires forall l :: l in order ==> l in dataset && l in labels
    ensures forall i :: 0 <= i < |r| ==> r[i].id in labels.Values
    decreases |order|
  {
    if |order| == 0 then []
    else
      var l := order[0];
      var dir := DirSamples(cv, dataset[l], Listing(dataset[l]), labels[l]);
      assert labels[l] in labels.Values;
      dir + CollectFrom(cv, dataset, order[1..], labels)
  }

  /** A sample is collected exactly when some directory of `order` yields it. */
  lemma {:induction false} CollectFromExactly(cv: Cv, dataset: Dataset, order: seq<string>, labels: Registry.Labels, x: Sample)
    requires forall l :: l in order ==> l in dataset && l in labels
    ensures x in CollectFrom(cv, dataset, order, labels) <==>
      exists l :: l in order && x in DirSamples(cv, dataset[l], Listing(dataset[l]), labels[l])
    decreases |order|
  {
    if |order| > 0 {
      CollectFromExactly(cv, dataset, order[1..], labels, x);
      assert forall l :: l in order <==> l == order[0] || l in order[1..];
    }
  }

  /** The label directories not yet registered, in sorted order. */
  function NewLabels(s: State): seq<string>
  {
    Registry.Fresh(s.labels.Keys, Text.Sorted(s.dataset.Keys))
  }

  /** The registry after `_collect_dataset` has registered every label
      directory, in sorted order, and the inverse map rebuilt from it. The
      new labels are numbered consecutively from `_next_label_id()`. */
  function Register(s: State): (r: State)
    requires Registry.Injective(s.labels)
    ensures Valid(r)
    ensures forall l :: l in r.labels <==> l in s.labels || l in s.dataset
    ensures forall l :: l in s.labels ==> l in r.labels && r.labels[l] == s.labels[l]
    ensures forall i :: 0 <= i < |NewLabels(s)| ==>
      NewLabels(s)[i] in r.labels && r.labels[NewLabels(s)[i]] == Registry.NextLabelId(s.labels) + i
    ensures r.ids == Registry.Inverse(r.labels)
    ensures r == s.(labels := r.labels, ids := r.ids)
  {
    var labels := Registry.EnsureAll(s.labels, Text.Sorted(s.dataset.Keys));
    Registry.EnsureAllNumbersFresh(s.labels, Text.Sorted(s.dataset.Keys));
    s.(labels := labels, ids := Registry.Inverse(labels))
  }

  /** The faces `_collect_dataset` gathers: those of every file of every
      label directory, directory by directory in sorted order, each tagged
      with its directory's id. */
  function Gather(cv: Cv, labels: Registry.Labels, dataset: Dataset): (r: seq<Sample>)
    requires forall l :: l in dataset ==> l in labels
    ensures forall i :: 0 <= i < |r| ==> r[i].id in labels.Values
  {
    CollectFrom(cv, dataset, Text.Sorted(dataset.Keys), labels)
  }

  /** The training set is every face found in the dataset, each tagged with
      the id of the label directory it was found in, and nothing else. */
  lemma GatherExactly(cv: Cv, labels: Registry.Labels, dataset: Dataset, x: Sample)
    requires forall l :: l in dataset ==> l in labels
    ensures x in Gather(cv, labels, dataset) <==>
      exists l, n :: l in dataset && n in dataset[l] && x.id == labels[l] && FileFace(cv, dataset[l][n]) == Some(x.face)
  {
    CollectFromExactly(cv, dataset, Text.Sorted(dataset.Keys), labels, x);
    forall l | l in dataset
      ensures x in DirSamples(cv, dataset[l], Listing(dataset[l]), labels[l]) <==>
        x.id == labels[l] && exists n :: n in dataset[l] && FileFace(cv, dataset[l][n]) == Some(x.face)
    {
      DirSamplesExactly(cv, dataset[l], Listing(dataset[l]), labels[l], x);
    }
  }

  /* ---------- adaptive thresholds ---------- */

  /** Range a per-label threshold is clipped to. */
  const MinLabelThreshold: real := 55.0
  const MaxLabelThreshold: real := 130.0

  /** `max(55.0, min(130.0, x))`. */
  function ClampThreshold(x: real): (r: real)
    ensures MinLabelThreshold <= r <= MaxLabelThreshold
    ensures MinLabelThreshold <= x <= MaxLabelThreshold ==> r == x
    ensures x < MinLabelThreshold ==> r == MinLabelThreshold
    ensures x > MaxLabelThreshold ==> r == MaxLabelThreshold
  {
    var capped := if x <= MaxLabelThreshold then x else MaxLabelThreshold;
    if capped >= MinLabelThreshold then capped else MinLabelThreshold
  }

  /** The label ids present in a training set. */
  function SampleIds(model: seq<Sample>): set<int>
  {
    set x | x in model :: x.id
  }

  /** The distances the trained model reports for the samples of `samples`
      tagged `id`, in training order. */
  function SelfDistances(cv: Cv, model: seq<Sample>, samples: seq<Sample>, id: int): (r: seq<real>)
    ensures |r| <= |samples|
    decreases |samples|
  {
    if |samples| == 0 then []
    else
      var rest := SelfDistances(cv, model, samples[1..], id);
      if samples[0].id == id then [cv.predict(model, samples[0].face).distance] + rest else rest
  }

  /** The thresholds computed after training: one per non-empty label whose id
      has samples, the clipped `mean + 2 * std` of its own training distances. */
  function LabelThresholds(cv: Cv, model: seq<Sample>, labels: Registry.Labels): (r: map<string, real>)
    ensures forall l :: l in r <==> l in labels && l != "" && labels[l] in SampleIds(model)
    ensures forall l :: l in r ==> MinLabelThreshold <= r[l] <= MaxLabelThreshold
  {
    map l | l in labels && l != "" && labels[l] in SampleIds(model) ::
      ClampThreshold(cv.spread(SelfDistances(cv, model, model, labels[l])))
  }

  /* ---------- rebuild ---------- */

  /** `(labels_count, images_count)`. */
  datatype Counts = Counts(labelsCount: nat, imagesCount: nat)

  /** The state after a rebuild, and its counts, or `None` for the
      `RuntimeError` raised when the dataset holds no face. */
  datatype Rebuilt = Rebuilt(state: State, counts: Option<Counts>)

  /** Training on the collected faces (the second half of
      `rebuild_from_dataset`). Without faces the model file is removed and the
      call fails; otherwise the model is trained on the faces, the thresholds
      are replaced by the computed ones when there are any, and the counts
      are the number of distinct ids trained on and the number of faces.
      Nothing but the model and the thresholds changes. */
  function Train(cv: Cv, s: State): (r: Rebuilt)
    requires forall l :: l in s.dataset ==> l in s.labels
    ensures r.state == s.(model := r.state.model, thresholds := r.state.thresholds)
    ensures r.counts.None? <==> r.state.model.None?
    ensures r.state.model.None? <==> |Gather(cv, s.labels, s.dataset)| == 0
    ensures r.state.model.Some? ==> r.state.model.value == Gather(cv, s.labels, s.dataset)
    ensures r.state.model.None? ==> r.state.thresholds == s.thresholds
    ensures r.state.model.Some? ==> |r.state.model.value| > 0
    ensures r.state.model.Some? ==> forall i :: 0 <= i < |r.state.model.value| ==> r.state.model.value[i].id in s.labels.Values
    ensures r.counts.Some? ==> r.counts.value.imagesCount == |r.state.model.value|
    ensures r.counts.Some? ==> r.counts.value.labelsCount == |SampleIds(r.state.model.value)|
    ensures r.counts.Some? ==> r.counts.value.labelsCount > 0
    ensures r.state.thresholds != s.thresholds ==>
      forall l :: l in r.state.thresholds ==> l in s.labels && MinLabelThreshold <= r.state.thresholds[l] <= MaxLabelThreshold
  {
    var samples := Gather(cv, s.labels, s.dataset);
    if |samples| == 0 then
      Rebuilt(s.(model := None), None)
    else
      var computed := LabelThresholds(cv, samples, s.labels);
      var thresholds := if |computed| > 0 then computed else s.thresholds;
      assert samples[0].id in SampleIds(samples);
      Rebuilt(s.(model := Some(samples), thresholds := thresholds),
              Some(Counts(|SampleIds(samples)|, |samples|)))
  }

  /** `rebuild_from_dataset`: every label directory is registered and the
      inverse map rebuilt from the registry, even when training then fails;
      then the model is trained as `Train` says. Every id trained on
      belongs to a registered label. */
  function Rebuild(cv: Cv, s: State): (r: Rebuilt)
    requires Registry.Injective(s.labels)
    ensures Valid(r.state)
    ensures forall l :: l in r.state.labels <==> l in s.labels || l in s.dataset
    ensures forall l :: l in s.labels ==> l in r.state.labels && r.state.labels[l] == s.labels[l]
    ensures forall i :: 0 <= i < |NewLabels(s)| ==>
      NewLabels(s)[i] in r.state.labels && r.state.labels[NewLabels(s)[i]] == Registry.NextLabelId(s.labels) + i
    ensures r.state.ids == Registry.Inverse(r.state.labels)
    ensures r.state.dataset == s.dataset && r.state.metadata == s.metadata && r.state.threshold == s.threshold
    ensures r.state.model.None? <==> |Gather(cv, r.state.labels, r.state.dataset)| == 0
    ensures r.state.model.Some? ==> r.state.model.value == Gather(cv, r.state.labels, r.state.dataset)
    ensures r.counts.None? <==> r.state.model.None?
    ensures r.state.model.None? ==> r.state.thresholds == s.thresholds
    ensures r.state.model.Some? ==> forall i :: 0 <= i < |r.state.model.value| ==> r.state.model.value[i].id in r.state.labels.Values
    ensures r.counts.Some? ==> r.counts.value.labelsCount > 0 && r.counts.value.imagesCount > 0
    ensures r.counts.Some? ==> r.counts.value.imagesCount == |r.state.model.value|
    ensures r.counts.Some? ==> r.counts.value.labelsCount == |SampleIds(r.state.model.value)|
    ensures r.state.thresholds != s.thresholds ==>
      forall l :: l in r.state.thresholds ==> l in r.state.labels && MinLabelThreshold <= r.state.thresholds[l] <= MaxLabelThreshold
  {
    Train(cv, Register(s))
  }

  /** After successful training every non-empty label whose id has samples
      has a clipped threshold of its own. */
  lemma TrainSetsThresholds(cv: Cv, s: State, l: string)
    requires forall k :: k in s.dataset ==> k in s.labels
    requires Train(cv, s).state.model.Some?
    requires l in s.labels && l != "" && s.labels[l] in SampleIds(Train(cv, s).state.model.value)
    ensures var r := Train(cv, s).state;
      l in r.thresholds && MinLabelThreshold <= r.thresholds[l] <= MaxLabelThreshold
  {
    var samples := Gather(cv, s.labels, s.dataset);
    assert l in LabelThresholds(cv, samples, s.labels);
  }

  /* ---------- enrolment ---------- */

  /** The state after an upload and its `(processed, skipped)` counts. */
  datatype Enrolled = Enrolled(state: State, processed: nat, skipped: nat)

  /** The bookkeeping of `add_training_images_for_label`: the label is
      registered if new and its directory becomes `dir`. The inverse map, the
      model and every other directory stay as they were until the next
      rebuild. */
  function Enrol(s: State, name: string, dir: Samples.Dir): (r: State)
    ensures forall l :: l in r.labels <==> l in s.labels || l == name
    ensures forall l :: l in s.labels ==> l in r.labels && r.labels[l] == s.labels[l]
    ensures name !in s.labels ==> r.labels[name] == Registry.NextLabelId(s.labels)
    ensures name !in s.labels ==> forall l :: l in s.labels ==> s.labels[l] < r.labels[name]
    ensures Valid(s) ==> Valid(r)
    ensures forall l :: l in r.dataset <==> l in s.dataset || l == name
    ensures name in r.dataset && r.dataset[name] == dir
    ensures forall l :: l in s.dataset && l != name ==> l in r.dataset && r.dataset[l] == s.dataset[l]
    ensures r.ids == s.ids && r.model == s.model && r.metadata == s.metadata
    ensures r.thresholds == s.thresholds && r.threshold == s.threshold
  {
    s.(labels := Registry.Ensure(s.labels, name), dataset := s.dataset[name := dir])
  }

  /** `add_training_images_for_label` (with the corrected sample numbering of
      `Samples.AddSamples`): the label's directory is created if missing, the
      label is registered if new, and the uploads are saved into the
      directory; every upload is counted once, as processed exactly when its
      face was saved. The HTTP layer only passes non-empty, stripped labels. */
  function AddTrainingImages(cv: Cv, s: State, name: string, uploads: seq<Samples.Upload>): (r: Enrolled)
    requires name != ""
    ensures r.processed + r.skipped == |uploads|
    ensures r.processed == |Samples.Saved(Samples.Attempts(cv, uploads))|
    ensures name in r.state.dataset &&
      r.state.dataset[name] == Samples.AddSamples(cv, Get(s.dataset, name).GetOr(map[]), uploads).dir
    ensures r.state == Enrol(s, name, r.state.dataset[name])
  {
    var batch := Samples.AddSamples(cv, Get(s.dataset, name).GetOr(map[]), uploads);
    Enrolled(Enrol(s, name, batch.dir), batch.processed, batch.skipped)
  }

  /** With the corrected numbering, enrolment never loses a file already in
      the label's directory. */
  lemma AddTrainingImagesKeepsFiles(cv: Cv, s: State, name: string, uploads: seq<Samples.Upload>, n: string)
    requires name != "" && name in s.dataset && n in s.dataset[name]
    ensures var r := AddTrainingImages(cv, s, name, uploads).state;
      n in r.dataset[name] && r.dataset[name][n] == s.dataset[name][n]
  {
    Samples.AddSamplesKeepsExisting(cv, s.dataset[name], uploads, n);
  }

  /** Enrolment followed by a rebuild (what the upload endpoint does) leaves
      the label registered and resolvable through the inverse map. */
  lemma EnrolledLabelResolves(cv: Cv, s: State, name: string, uploads: seq<Samples.Upload>)
    requires Valid(s) && name != ""
    ensures var r := Rebuild(cv, AddTrainingImages(cv, s, name, uploads).state).state;
      name in r.labels && r.labels[name] in r.ids && r.ids[r.labels[name]] == name
  {
  }

  /* ---------- deletion ---------- */

  /** The bookkeeping of `delete_label_and_retrain` before retraining: the
      label's directory is gone; a registered label leaves the registry, the
      inverse map is rebuilt without it and its metadata is dropped; an
      unregistered label leaves registry and metadata alone. */
  function Prune(s: State, name: string): (r: State)
    requires Valid(s)
    ensures Valid(r)
    ensures forall l :: l in r.dataset <==> l in s.dataset && l != name
    ensures forall l :: l in r.dataset ==> r.dataset[l] == s.dataset[l]
    ensures forall l :: l in r.labels <==> l in s.labels && l != name
    ensures forall l :: l in r.labels ==> r.labels[l] == s.labels[l]
    ensures name in s.labels ==> r.ids == Registry.Inverse(r.labels)
    ensures name !in s.labels ==> r.ids == s.ids
    ensures name in s.labels ==> name !in r.metadata
    ensures name !in s.labels ==> r.metadata == s.metadata
    ensures forall l :: l != name ==> (l in r.metadata <==> l in s.metadata)
    ensures forall l :: l != name && l in s.metadata ==> r.metadata[l] == s.metadata[l]
    ensures r.model == s.model && r.thresholds == s.thresholds && r.threshold == s.threshold
  {
    var dataset := s.dataset - {name};
    if name in s.labels then
      var labels := Registry.Remove(s.labels, name);
      var metadata := if name in s.metadata then s.metadata - {name} else s.metadata;
      s.(dataset := dataset, labels := labels, ids := Registry.Inverse(labels), metadata := metadata)
    else s.(dataset := dataset)
  }

  /** `{"removed", "labels_count", "images_count"}` and the state after. */
  datatype Deleted = Deleted(state: State, removed: bool, labelsCount: nat, imagesCount: nat)

  /** `delete_label_and_retrain`: after `Prune`, if any label directory
      remains the model is rebuilt, and a failed rebuild leaves no model and
      zero counts; with no directory left the previous model stays. The label
      ends up neither on disk nor in the registry, every other registered
      label keeps its id, and `removed` says whether its directory existed.
      The HTTP layer only passes non-empty labels. */
  function DeleteLabel(cv: Cv, s: State, name: string): (r: Deleted)
    requires Valid(s) && name != ""
    ensures Valid(r.state)
    ensures r.removed <==> name in s.dataset
    ensures forall l :: l in r.state.dataset <==> l in s.dataset && l != name
    ensures name !in r.state.labels
    ensures forall l :: l in s.labels && l != name ==> l in r.state.labels && r.state.labels[l] == s.labels[l]
    ensures forall l :: l in r.state.dataset ==> r.state.dataset[l] == s.dataset[l]
    ensures forall l :: l in r.state.labels <==>
      l != name && (l in s.labels || (|r.state.dataset| > 0 && l in s.dataset))
    ensures name in s.labels || |r.state.dataset| > 0 ==> r.state.ids == Registry.Inverse(r.state.labels)
    ensures name !in s.labels && |r.state.dataset| == 0 ==> r.state.ids == s.ids
    ensures name in s.labels ==> name !in r.state.metadata
    ensures name !in s.labels ==> r.state.metadata == s.metadata
    ensures forall l :: l != name ==> (l in r.state.metadata <==> l in s.metadata)
    ensures forall l :: l != name && l in s.metadata ==> r.state.metadata[l] == s.metadata[l]
    ensures |r.state.dataset| == 0 ==> r.state.model == s.model && r.labelsCount == 0 && r.imagesCount == 0
    ensures |r.state.dataset| > 0 ==> (r.state.model.None? <==> r.imagesCount == 0)
    ensures |r.state.dataset| > 0 && r.state.model.Some? ==>
      r.imagesCount == |r.state.model.value| && r.state.model.value == Gather(cv, r.state.labels, r.state.dataset)
    ensures |r.state.dataset| > 0 && r.state.model.Some? ==> r.labelsCount == |SampleIds(r.state.model.value)|
    ensures r.imagesCount == 0 <==> r.labelsCount == 0
    ensures r.state.threshold == s.threshold
    ensures |r.state.dataset| == 0 || r.state.model.None? ==> r.state.thresholds == s.thresholds
    ensures r.state.thresholds != s.thresholds ==>
      forall l :: l in r.state.thresholds ==> l in r.state.labels && MinLabelThreshold <= r.state.thresholds[l] <= MaxLabelThreshold
  {
    var pruned := Prune(s, name);
    if |pruned.dataset| == 0 then Deleted(pruned, name in s.dataset, 0, 0)
    else
      var rebuilt := Rebuild(cv, pruned);
      match rebuilt.counts
      case None => Deleted(rebuilt.state, name in s.dataset, 0, 0)
      case Some(c) => Deleted(rebuilt.state, name in s.dataset, c.labelsCount, c.imagesCount)
  }

  /* ---------- prediction ---------- */

  /** What `predict_from_bgr_image` answers: an error without a model,
      `Unknown` without a usable face, `Unknown` with the best distance when
      the vote and the fallback reject, `Unknown` with a distance and score
      when the accepted id does not resolve or fails the label's adaptive
      threshold, or a recognised label with its metadata. */
  datatype Verdict =
    | NotTrained
    | NoFace
    | TooFar(best: real, box: Box)
    | Unknown(confidence: real, score: real, box: Box)
    | Recognised(name: string, metadata: Option<Metadata.Record>, confidence: real, score: real, box: Box)

  /** The classifier's answer for each filtered variant, in order. */
  function Predictions(cv: Cv, model: seq<Sample>, variants: seq<Faces.Variant>): (r: seq<Voting.Scored>)
    ensures |r| == |variants|
    ensures forall i :: 0 <= i < |r| ==>
      r[i].id == cv.predict(model, variants[i].face).id &&
      r[i].distance == cv.predict(model, variants[i].face).distance &&
      r[i].box == variants[i].box
  {
    seq(|variants|, i requires 0 <= i < |variants| =>
      var p := cv.predict(model, variants[i].face);
      Voting.Scored(p.id, p.distance, variants[i].box))
  }

  /** The variants a prediction classifies. */
  function Usable(cv: Cv, image: Color): seq<Faces.Variant>
  {
    Voting.Filter(Faces.PrepareFaceVariants(cv, image))
  }

  /** `predict_from_bgr_image`. */
  function Predict(cv: Cv, s: State, image: Color): (r: Verdict)
    ensures r.NotTrained? <==> s.model.None?
    ensures r.NoFace? <==> s.model.Some? && |Usable(cv, image)| == 0
    ensures r.Recognised? ==> r.name in s.ids.Values && r.confidence <= s.threshold
    ensures r.Recognised? || r.Unknown? ==> 0.0 <= r.score <= 1.0 && (r.score > 0.0 <==> r.confidence < s.threshold)
    ensures r.Recognised? ==> r.metadata == Metadata.GetLabelMetadata(s.metadata, r.name)
  {
    match s.model
    case None => NotTrained
    case Some(model) =>
      var variants := Faces.PrepareFaceVariants(cv, image);
      if |variants| == 0 then NoFace
      else
        var filtered := Voting.Filter(variants);
        if |filtered| == 0 then NoFace
        else
          var preds := Predictions(cv, model, filtered);
          match Voting.Decide(preds, s.threshold)
          case Rejected(best, box) => TooFar(best, box)
          case Accepted(id, confidence, box) =>
            var score := Voting.Score(s.threshold, confidence);
            if id in s.ids then
              var name := s.ids[id];
              var labelThreshold := Get(s.thresholds, name).GetOr(s.threshold);
              if confidence > Voting.EffectiveThreshold(s.threshold, labelThreshold) then
                Unknown(confidence, score, box)
              else
                Recognised(name, Metadata.GetLabelMetadata(s.metadata, name), confidence, score, box)
            else Unknown(confidence, score, box)
  }

  /** The per-label adaptive check never rejects: an accepted confidence is
      within the global threshold, and the effective threshold is never below
      it. So a classified image is recognised exactly when the decision
      accepts an id the inverse map knows; an unknown id gives `Unknown`, a
      rejection `TooFar`. */
  lemma AdaptiveCheckNeverRejects(cv: Cv, s: State, image: Color)
    requires s.model.Some? && |Usable(cv, image)| > 0
    ensures var d := Voting.Decide(Predictions(cv, s.model.value, Usable(cv, image)), s.threshold);
      Predict(cv, s, image) ==
        match d
        case Rejected(best, box) => TooFar(best, box)
        case Accepted(id, confidence, box) =>
          if id in s.ids then
            Recognised(s.ids[id], Metadata.GetLabelMetadata(s.metadata, s.ids[id]), confidence,
                       Voting.Score(s.threshold, confidence), box)
          else Unknown(confidence, Voting.Score(s.threshold, confidence), box)
  {
    assert |Faces.PrepareFaceVariants(cv, image)| > 0;
  }

  /** A recognised label is registered, and its id is the one the inverse
      map resolved. */
  lemma RecognisedIsRegistered(cv: Cv, s: State, image: Color)
    requires Valid(s)
    requires Predict(cv, s, image).Recognised?
    ensures var name := Predict(cv, s, image).name;
      name in s.labels && s.labels[name] in s.ids && s.ids[s.labels[name]] == name
  {
    var name := Predict(cv, s, image).name;
    var id :| id in s.ids && s.ids[id] == name;
  }

  /** Once a label is deleted, no image is recognised as it. */
  lemma DeletedLabelNeverRecognised(cv: Cv, s: State, name: string, image: Color)
    requires Valid(s) && name != ""
    ensures var after := DeleteLabel(cv, s, name).state;
      !(Predict(cv, after, image).Recognised? && Predict(cv, after, image).name == name)
  {
    var after := DeleteLabel(cv, s, name).state;
    if Predict(cv, after, image).Recognised? {
      RecognisedIsRegistered(cv, after, image);
    }
  }
}

=== FILE: sets.dfy ===
/** Choosing elements of finite sets. */
module Sets {

  /** Some element of a non-empty set. */
  lemma Pick<T>(s: set<T>) returns (x: T)
    requires s != {}
    ensures x in s
  {
    x :| x in s;
  }

  lemma {:induction false} MaxExists(s: set<int>)
    requires s != {}
    ensures exists m :: m in s && forall v :: v in s ==> v <= m
    decreases |s|
  {
    var x := Pick(s);
    if s != {x} {
      var rest := s - {x};
      assert s == rest + {x};
      MaxExists(rest);
      var m' :| m' in rest && forall v :: v in rest ==> v <= m';
      if x <= m' {
        assert forall v :: v in s ==> v <= m';
      } else {
        assert forall v :: v in s ==> v <= x;
      }
    } else {
      assert forall v :: v in s ==> v <= x;
    }
  }

  /** Python's `max(s)` on a non-empty collection of integers. */
  function Max(s: set<int>): (r: int)
    requires s != {}
    ensures r in s
    ensures forall v :: v in s ==> v <= r
  {
    MaxExists(s);
    var m :| m in s && forall v :: v in s ==> v <= m;
    m
  }
}

=== FILE: text.dfy ===
/** Character and string helpers shared by the model: ASCII case folding,
    decimal digits as Python's `int()` reads them and `f"{n:0Wd}"` writes them,
    and Python's code-point ordering of strings together with the sort that
    `sorted()` performs on a set of directory names. */
module Text {
  import opened Wrappers
  import Sets

  /* ---------- case folding ---------- */

  /** ASCII lower-casing of one character. */
  function Lower(c: char): char
  {
    if 'A' <= c <= 'Z' then (c as int + 32) as char else c
  }

  /** `s` equals the lower-case literal `lit` when case is ignored. */
  predicate EqualsIgnoringCase(s: string, lit: string)
  {
    |s| == |lit| && forall i :: 0 <= i < |s| ==> Lower(s[i]) == lit[i]
  }

  /* ---------- decimal digits ---------- */

  predicate IsDigit(c: char)
  {
    '0' <= c <= '9'
  }

  predicate AllDigits(s: string)
  {
    forall i :: 0 <= i < |s| ==> IsDigit(s[i])
  }

  function DigitValue(c: char): (d: nat)
    requires IsDigit(c)
    ensures d < 10
  {
    c as int - '0' as int
  }

  function DigitChar(d: nat): (c: char)
    requires d < 10
    ensures IsDigit(c) && DigitValue(c) == d
  {
    ('0' as int + d) as char
  }

  /** The number a string of decimal digits denotes, as `int(s)` computes it. */
  function Value(s: string): nat
    requires AllDigits(s)
  {
    if |s| == 0 then 0 else Value(s[..|s| - 1]) * 10 + DigitValue(s[|s| - 1])
  }

  /** The shortest decimal representation of `n`, as `str(n)` writes it. */
  function Decimal(n: nat): (r: string)
    ensures 1 <= |r| && AllDigits(r)
    ensures |r| > 1 ==> r[0] != '0'
  {
    if n < 10 then [DigitChar(n)] else Decimal(n / 10) + [DigitChar(n % 10)]
  }

  function Zeros(k: nat): (r: string)
    ensures |r| == k && AllDigits(r)
    ensures forall i :: 0 <= i < k ==> r[i] == '0'
  {
    seq(k, _ => '0')
  }

  /** `f"{n:0{width}d}"`: the decimal digits of `n`, left-padded with zeros to `width`. */
  function Format(n: nat, width: nat): (r: string)
    ensures AllDigits(r)
    ensures |r| == if |Decimal(n)| < width then width else |Decimal(n)|
  {
    if |Decimal(n)| < width then Zeros(width - |Decimal(n)|) + Decimal(n) else Decimal(n)
  }

  /** Reading back what `Decimal` wrote gives the number again. */
  lemma {:induction false} ValueOfDecimal(n: nat)
    ensures Value(Decimal(n)) == n
  {
    if n >= 10 {
      var s := Decimal(n / 10) + [DigitChar(n % 10)];
      assert s[..|s| - 1] == Decimal(n / 10);
      ValueOfDecimal(n / 10);
    }
  }

  /** Leading zeros do not change the value of a digit string. */
  lemma {:induction false} ValueIgnoresLeadingZeros(k: nat, s: string)
    requires AllDigits(s)
    ensures Value(Zeros(k) + s) == Value(s)
    decreases |s|
  {
    if |s| == 0 {
      assert Zeros(k) + s == Zeros(k);
      ValueOfZeros(k);
    } else {
      var t := Zeros(k) + s;
      assert t[..|t| - 1] == Zeros(k) + s[..|s| - 1];
      ValueIgnoresLeadingZeros(k, s[..|s| - 1]);
    }
  }

  lemma {:induction false} ValueOfZeros(k: nat)
    ensures Value(Zeros(k)) == 0
  {
    if k > 0 {
      assert Zeros(k)[..k - 1] == Zeros(k - 1);
      ValueOfZeros(k - 1);
    }
  }

  /** Parsing a zero-padded number gives back the number, whatever the width. */
  lemma FormatRoundTrip(n: nat, width: nat)
    ensures Value(Format(n, width)) == n
  {
    ValueOfDecimal(n);
    if |Decimal(n)| < width {
      ValueIgnoresLeadingZeros(width - |Decimal(n)|, Decimal(n));
    }
  }

  function Pow10(k: nat): (r: nat)
    ensures r >= 1
  {
    if k == 0 then 1 else 10 * Pow10(k - 1)
  }

  /** A string of `k` digits denotes a number below `10^k`. */
  lemma {:induction false} ValueBelowPow10(s: string)
    requires AllDigits(s)
    ensures Value(s) < Pow10(|s|)
    decreases |s|
  {
    if |s| > 0 {
      var prefix := s[..|s| - 1];
      assert AllDigits(prefix);
      ValueBelowPow10(prefix);
      assert Value(s) <= (Pow10(|prefix|) - 1) * 10 + 9;
    }
  }

  /** `Decimal(n)` needs more than `k` digits exactly when `n` reaches `10^k`. */
  lemma {:induction false} DecimalLength(n: nat, k: nat)
    requires k >= 1
    ensures |Decimal(n)| <= k <==> n < Pow10(k)
  {
    if n >= 10 {
      assert |Decimal(n)| == |Decimal(n / 10)| + 1;
      if k > 1 {
        DecimalLength(n / 10, k - 1);
        assert n / 10 < Pow10(k - 1) <==> n < Pow10(k);
      } else {
        assert Pow10(1) == 10;
      }
    } else {
      assert Pow10(k) == 10 * Pow10(k - 1);
    }
  }

  /* ---------- Python string ordering ---------- */

  /** Python's `a < b` on `str`: lexicographic by code point, a proper prefix first. */
  predicate Less(a: string, b: string)
    decreases |a|
  {
    if |a| == 0 then |b| > 0
    else if |b| == 0 then false
    else a[0] < b[0] || (a[0] == b[0] && Less(a[1..], b[1..]))
  }

  lemma {:induction false} LessIrreflexive(a: string)
    ensures !Less(a, a)
    decreases |a|
  {
    if |a| > 0 {
      LessIrreflexive(a[1..]);
    }
  }

  lemma {:induction false} LessTransitive(a: string, b: string, c: string)
    requires Less(a, b) && Less(b, c)
    ensures Less(a, c)
    decreases |a|
  {
    if |a| > 0 && a[0] == b[0] && b[0] == c[0] {
      LessTransitive(a[1..], b[1..], c[1..]);
    }
  }

  lemma {:induction false} LessTotal(a: string, b: string)
    requires a != b
    ensures Less(a, b) || Less(b, a)
    decreases |a|
  {
    if |a| > 0 && |b| > 0 && a[0] == b[0] {
      assert a == [a[0]] + a[1..] && b == [b[0]] + b[1..];
      LessTotal(a[1..], b[1..]);
    }
  }

  /** `m` is the least element of `s` in Python's string order. */
  predicate IsLeast(m: string, s: set<string>)
  {
    m in s && forall y :: y in s && y != m ==> Less(m, y)
  }

  lemma {:induction false} LeastExists(s: set<string>)
    requires s != {}
    ensures exists m :: IsLeast(m, s)
    decreases |s|
  {
    var x := Sets.Pick(s);
    if s != {x} {
      var rest := s - {x};
      assert |rest| < |s|;
      LeastExists(rest);
      var m' :| IsLeast(m', rest);
      if Less(x, m') {
        forall y | y in s && y != x
          ensures Less(x, y)
        {
          if y != m' {
            LessTransitive(x, m', y);
          }
        }
        assert IsLeast(x, s);
      } else {
        if x != m' {
          LessTotal(x, m');
        }
        assert IsLeast(m', s);
      }
    } else {
      assert IsLeast(x, s);
    }
  }

  lemma LeastUnique(s: set<string>)
    ensures forall m1, m2 :: IsLeast(m1, s) && IsLeast(m2, s) ==> m1 == m2
  {
    forall m1, m2 | IsLeast(m1, s) && IsLeast(m2, s)
      ensures m1 == m2
    {
      if m1 != m2 {
        LessTransitive(m1, m2, m1);
        LessIrreflexive(m1);
      }
    }
  }

  predicate StrictlySorted(xs: seq<string>)
  {
    forall i, j :: 0 <= i < j < |xs| ==> Less(xs[i], xs[j])
  }

  /** `sorted(s)` for a set of strings: every element once, in ascending order. */
  function Sorted(s: set<string>): (r: seq<string>)
    ensures StrictlySorted(r)
    ensures |r| == |s|
    ensures forall x :: x in s <==> x in r
    decreases |s|
  {
    if s == {} then []
    else
      LeastExists(s);
      LeastUnique(s);
      var m :| IsLeast(m, s);
      var rest := Sorted(s - {m});
      assert forall i :: 0 <= i < |rest| ==> rest[i] in s - {m};
      assert forall i :: 0 <= i < |rest| ==> Less(m, rest[i]);
      [m] + rest
  }
}

=== FILE: vision.dfy ===
/** The image types of the recognizer and the library calls it makes.

    OpenCV (colour conversion, histogram equalisation, the Haar cascade
    detector, resizing with CLAHE/blur/sharpening, JPEG encoding and decoding,
    and the LBPH classifier) and numpy's float statistics are foreign code.
    They appear here only as function-valued fields of `Cv`, about which the
    model assumes nothing except where a lemma states a requirement on them. */
module Vision {
  import opened Wrappers

  newtype Byte = b: int | 0 <= b < 256

  type Bytes = seq<Byte>

  /** A raster as numpy holds it: a sequence of rows. */
  type Image<T> = seq<seq<T>>

  datatype Bgr = Bgr(blue: Byte, green: Byte, red: Byte)

  /** Single-channel 8-bit image. */
  type Gray = Image<Byte>

  /** Three-channel image as `cv2.imdecode(..., IMREAD_COLOR)` produces it. */
  type Color = Image<Bgr>

  /** An `(x, y, w, h)` bounding box. */
  datatype Box = Box(x: int, y: int, w: int, h: int)

  /** One training sample handed to LBPH `train`: a normalised face and its numeric label id. */
  datatype Sample = Sample(face: Gray, id: int)

  /** What LBPH `predict` returns: the nearest label id and its distance (lower is closer). */
  datatype Prediction = Prediction(id: int, distance: real)

  datatype Cv = Cv(
    toGray: Color -> Gray,                   // cv2.cvtColor(..., COLOR_BGR2GRAY)
    equalize: Gray -> Gray,                  // cv2.equalizeHist
    detect: Gray -> seq<Box>,                // detect_faces (Haar cascade)
    normalize: Gray -> Gray,                 // resize to 200x200, CLAHE, blur, sharpen
    decode: Bytes -> Option<Color>,          // cv2.imdecode / cv2.imread
    encode: Gray -> Bytes,                   // JPEG encoding done by cv2.imwrite
    predict: (seq<Sample>, Gray) -> Prediction, // LBPH predict against a trained sample set
    spread: seq<real> -> real                // float32 mean + 2 * std of a distance list
  )

  function Height<T>(img: Image<T>): nat
  {
    |img|
  }

  /** Width of a raster; numpy arrays are rectangular, so the first row's width is every row's. */
  function Width<T>(img: Image<T>): nat
  {
    if |img| == 0 then 0 else |img[0]|
  }

  predicate Rectangular<T>(img: Image<T>)
  {
    forall i :: 0 <= i < |img| ==> |img[i]| == Width(img)
  }

  /** The box lies entirely within a `width` x `height` raster. */
  predicate Inside(b: Box, width: int, height: int)
  {
    0 <= b.x && 0 <= b.w && b.x + b.w <= width &&
    0 <= b.y && 0 <= b.h && b.y + b.h <= height
  }

  /** `outer` covers every pixel of `inner`. */
  predicate Contains(outer: Box, inner: Box)
  {
    outer.x <= inner.x && inner.x + inner.w <= outer.x + outer.w &&
    outer.y <= inner.y && inner.y + inner.h <= outer.y + outer.h
  }

  /** The cascade detector reports only boxes within the image it scanned. */
  predicate DetectionsInside(cv: Cv, gray: Gray)
  {
    forall i :: 0 <= i < |cv.detect(gray)| ==> Inside(cv.detect(gray)[i], Width(gray), Height(gray))
  }
}

=== FILE: voting.dfy ===
/** The decision rule of `predict_from_bgr_image`: which crop variants are
    classified, how their predictions vote, when the single best prediction
    is accepted instead, and the score and threshold arithmetic around it.
    Distances are exact reals; the classifier itself is `Vision.Cv.predict`. */
module Voting {
  import opened Wrappers
  import opened Vision
  import Faces

  /* ---------- variant filter ---------- */

  /** Smallest accepted side of a variant box, in pixels. */
  const MinSide: int := 90

  /** Accepted range of the aspect ratio `w / h`. */
  const MinAspect: real := 0.7
  const MaxAspect: real := 1.4

  /** A variant box is classified only if both sides reach `MinSide` and
      `w / h` lies in `[MinAspect, MaxAspect]`. */
  predicate KeepBox(b: Box)
  {
    b.w >= MinSide && b.h >= MinSide &&
    MinAspect <= b.w as real / b.h as real <= MaxAspect
  }

  /** The variants that pass the size and aspect filter, in order. */
  function Filter(variants: seq<Faces.Variant>): (r: seq<Faces.Variant>)
    ensures |r| <= |variants|
    ensures forall v :: v in r <==> v in variants && KeepBox(v.box)
    ensures forall v :: multiset(r)[v] == if KeepBox(v.box) then multiset(variants)[v] else 0
  {
    if |variants| == 0 then []
    else
      var rest := Filter(variants[1..]);
      assert variants == [variants[0]] + variants[1..];
      assert forall v :: v in variants <==> v == variants[0] || v in variants[1..];
      if KeepBox(variants[0].box) then [variants[0]] + rest else rest
  }

  /** Filtering keeps order: it distributes over concatenation. */
  lemma {:induction false} FilterAppend(a: seq<Faces.Variant>, b: seq<Faces.Variant>)
    ensures Filter(a + b) == Filter(a) + Filter(b)
    decreases |a|
  {
    if |a| > 0 {
      assert (a + b)[1..] == a[1..] + b;
      FilterAppend(a[1..], b);
    } else {
      assert a + b == b;
    }
  }

  /** Filtering what already passed the filter changes nothing. */
  lemma {:induction false} FilterIdempotent(variants: seq<Faces.Variant>)
    ensures Filter(Filter(variants)) == Filter(variants)
    decreases |variants|
  {
    if |variants| > 0 {
      FilterIdempotent(variants[1..]);
      if KeepBox(variants[0].box) {
        var f := Filter(variants);
        assert f == [variants[0]] + Filter(variants[1..]);
        assert f[1..] == Filter(variants[1..]);
      }
    }
  }

  /* ---------- predictions and votes ---------- */

  /** One classified variant: the predicted label id, its distance, and the
      variant's box. */
  datatype Scored = Scored(id: int, distance: real, box: Box)

  /** Index of the first prediction of smallest distance: the `best_tuple`
      kept with a strict `<`, and also `min(entries, key=distance)`. */
  function Best(preds: seq<Scored>): (r: nat)
    requires |preds| > 0
    ensures r < |preds|
    ensures forall i :: 0 <= i < |preds| ==> preds[r].distance <= preds[i].distance
    ensures forall i :: 0 <= i < r ==> preds[r].distance < preds[i].distance
  {
    if |preds| == 1 then 0
    else
      var k := Best(preds[..|preds| - 1]);
      if preds[|preds| - 1].distance < preds[k].distance then |preds| - 1 else k
  }

  /** The predictions that become votes: distance at most the threshold. */
  function Qualifying(preds: seq<Scored>, threshold: real): (r: seq<Scored>)
    ensures |r| <= |preds|
    ensures forall p :: p in r <==> p in preds && p.distance <= threshold
    ensures forall p :: multiset(r)[p] == if p.distance <= threshold then multiset(preds)[p] else 0
  {
    if |preds| == 0 then []
    else
      var rest := Qualifying(preds[1..], threshold);
      assert preds == [preds[0]] + preds[1..];
      assert forall p :: p in preds <==> p == preds[0] || p in preds[1..];
      if preds[0].distance <= threshold then [preds[0]] + rest else rest
  }

  /** The votes keep the order of the predictions. */
  lemma {:induction false} QualifyingAppend(a: seq<Scored>, b: seq<Scored>, threshold: real)
    ensures Qualifying(a + b, threshold) == Qualifying(a, threshold) + Qualifying(b, threshold)
    decreases |a|
  {
    if |a| > 0 {
      assert (a + b)[1..] == a[1..] + b;
      QualifyingAppend(a[1..], b, threshold);
    } else {
      assert a + b == b;
    }
  }

  /** `votes[lid]`: the votes for one label id, in arrival order. */
  function Ballot(votes: seq<Scored>, id: int): (r: seq<Scored>)
    ensures |r| <= |votes|
    ensures forall p :: p in r <==> p in votes && p.id == id
    ensures forall p :: multiset(r)[p] == if p.id == id then multiset(votes)[p] else 0
  {
    if |votes| == 0 then []
    else
      var rest := Ballot(votes[1..], id);
      assert votes == [votes[0]] + votes[1..];
      assert forall p :: p in votes <==> p == votes[0] || p in votes[1..];
      if votes[0].id == id then [votes[0]] + rest else rest
  }

  /** An id's votes keep their arrival order. */
  lemma {:induction false} BallotAppend(a: seq<Scored>, b: seq<Scored>, id: int)
    ensures Ballot(a + b, id) == Ballot(a, id) + Ballot(b, id)
    decreases |a|
  {
    if |a| > 0 {
      assert (a + b)[1..] == a[1..] + b;
      BallotAppend(a[1..], b, id);
    } else {
      assert a + b == b;
    }
  }

  predicate Distinct(ids: seq<int>)
  {
    forall i, j :: 0 <= i < j < |ids| ==> ids[i] != ids[j]
  }

  /** Index of the first vote for `id`, or `|votes|` when it has none. */
  function FirstVote(votes: seq<Scored>, id: int): (r: nat)
    ensures r <= |votes|
    ensures r < |votes| ==> votes[r].id == id
    ensures forall m :: 0 <= m < r ==> votes[m].id != id
  {
    if |votes| == 0 then 0
    else
      var n := |votes| - 1;
      var k := FirstVote(votes[..n], id);
      if k < n then k else if votes[n].id == id then n else |votes|
  }

  /** The keys of `votes` in insertion order: each voted id once, in the
      order of its first vote. */
  function Voters(votes: seq<Scored>): (r: seq<int>)
    ensures Distinct(r)
    ensures forall id :: id in r <==> exists p :: p in votes && p.id == id
  {
    if |votes| == 0 then []
    else
      var prev := Voters(votes[..|votes| - 1]);
      var last := votes[|votes| - 1];
      assert forall p :: p in votes <==> p == last || p in votes[..|votes| - 1];
      if last.id in prev then prev else prev + [last.id]
  }

  /** An id that received a vote has its first vote inside the sequence. */
  lemma FirstVoteFound(votes: seq<Scored>, id: int)
    requires id in Voters(votes)
    ensures FirstVote(votes, id) < |votes|
  {
    var p :| p in votes && p.id == id;
    var m :| 0 <= m < |votes| && votes[m] == p;
  }

  /** `Voters` lists the ids in the order of their first votes, which is
      the insertion order of the `votes` dict. */
  lemma {:induction false} VotersInFirstVoteOrder(votes: seq<Scored>)
    ensures forall i, j :: 0 <= i < j < |Voters(votes)| ==>
      FirstVote(votes, Voters(votes)[i]) < FirstVote(votes, Voters(votes)[j])
    decreases |votes|
  {
    if |votes| > 0 {
      var n := |votes| - 1;
      var prefix := votes[..n];
      var prev := Voters(prefix);
      VotersInFirstVoteOrder(prefix);
      forall id | id in prev
        ensures FirstVote(votes, id) == FirstVote(prefix, id) < n
      {
        FirstVoteFound(prefix, id);
      }
      var last := votes[n];
      if last.id !in prev {
        assert Voters(votes) == prev + [last.id];
        assert FirstVote(prefix, last.id) == n;
        assert FirstVote(votes, last.id) == n;
        var r := prev + [last.id];
        forall i, j | 0 <= i < j < |r|
          ensures FirstVote(votes, r[i]) < FirstVote(votes, r[j])
        {
          assert r[i] == prev[i] && prev[i] in prev;
          if j < |prev| {
            assert r[j] == prev[j] && prev[j] in prev;
            assert FirstVote(prefix, prev[i]) < FirstVote(prefix, prev[j]);
          }
        }
      }
    }
  }

  function Sum(xs: seq<real>): real
  {
    if |xs| == 0 then 0.0 else Sum(xs[..|xs| - 1]) + xs[|xs| - 1]
  }

  function Distances(entries: seq<Scored>): (r: seq<real>)
    ensures |r| == |entries|
    ensures forall i :: 0 <= i < |entries| ==> r[i] == entries[i].distance
  {
    seq(|entries|, i requires 0 <= i < |entries| => entries[i].distance)
  }

  /** `sum(c for c, _ in entries) / len(entries)`. */
  function Mean(entries: seq<Scored>): real
    requires |entries| > 0
  {
    Sum(Distances(entries)) / |entries| as real
  }

  /** A sum of values each at most `bound` is at most `|xs| * bound`. */
  lemma {:induction false} SumAtMost(xs: seq<real>, bound: real)
    requires forall i :: 0 <= i < |xs| ==> xs[i] <= bound
    ensures Sum(xs) <= |xs| as real * bound
  {
    if |xs| > 0 {
      SumAtMost(xs[..|xs| - 1], bound);
    }
  }

  /** A mean of distances each at most `bound` is at most `bound`. */
  lemma MeanAtMost(entries: seq<Scored>, bound: real)
    requires |entries| > 0
    requires forall p :: p in entries ==> p.distance <= bound
    ensures Mean(entries) <= bound
  {
    var ds := Distances(entries);
    assert forall i :: 0 <= i < |ds| ==> ds[i] <= bound by {
      forall i | 0 <= i < |ds| ensures ds[i] <= bound {
        assert entries[i] in entries;
      }
    }
    SumAtMost(ds, bound);
    var n := |entries| as real;
    assert Sum(ds) / n <= (n * bound) / n;
  }

  /* ---------- the vote ---------- */

  /** A label id needs at least this many votes to be considered. */
  const MinVotes: nat := 2

  /** One entry of `votes`, summarised: the id, how many votes it has, their
      mean distance, and the box of its closest vote. */
  datatype Tally = Tally(id: int, count: nat, mean: real, box: Box)

  predicate Eligible(t: Tally)
  {
    t.count >= MinVotes
  }

  /** `a` wins over `b`: more votes, or as many votes and a smaller mean. */
  predicate Beats(a: Tally, b: Tally)
  {
    a.count > b.count || (a.count == b.count && a.mean < b.mean)
  }

  /** The summary of `votes[id]` for an id that received a vote. */
  function TallyOf(votes: seq<Scored>, id: int): (r: Tally)
    requires id in Voters(votes)
    ensures r.id == id && r.count == |Ballot(votes, id)| && r.count > 0
    ensures r.mean == Mean(Ballot(votes, id))
    ensures |Ballot(votes, id)| > 0 && r.box == Ballot(votes, id)[Best(Ballot(votes, id))].box
  {
    var p :| p in votes && p.id == id;
    assert p in Ballot(votes, id);
    var entries := Ballot(votes, id);
    Tally(id, |entries|, Mean(entries), entries[Best(entries)].box)
  }

  /** `votes.items()` in insertion order, summarised. */
  function Tallies(votes: seq<Scored>): (r: seq<Tally>)
    ensures |r| == |Voters(votes)|
    ensures forall i :: 0 <= i < |r| ==> r[i] == TallyOf(votes, Voters(votes)[i])
  {
    var ids := Voters(votes);
    seq(|ids|, i requires 0 <= i < |ids| => TallyOf(votes, ids[i]))
  }

  /** The loop over `votes.items()`: skip entries with fewer than `MinVotes`
      votes; take the first eligible one, then replace it only by one that
      beats it. The result is an eligible entry that no eligible entry beats,
      and it beats every eligible entry before it. */
  function Choose(tallies: seq<Tally>): (r: Option<nat>)
    ensures r.None? <==> forall i :: 0 <= i < |tallies| ==> !Eligible(tallies[i])
    ensures r.Some? ==> r.value < |tallies| && Eligible(tallies[r.value])
    ensures r.Some? ==> forall i :: 0 <= i < |tallies| && Eligible(tallies[i]) ==> !Beats(tallies[i], tallies[r.value])
    ensures r.Some? ==> forall i :: 0 <= i < r.value && Eligible(tallies[i]) ==> Beats(tallies[r.value], tallies[i])
  {
    if |tallies| == 0 then None
    else
      var n := |tallies| - 1;
      var prev := Choose(tallies[..n]);
      if !Eligible(tallies[n]) then prev
      else if prev.None? || Beats(tallies[n], tallies[prev.value]) then Some(n)
      else prev
  }

  /** The entry the vote picks is the only one with both properties: no
      eligible entry beats it, and it beats every eligible entry before it. */
  predicate Winner(tallies: seq<Tally>, k: nat)
  {
    && k < |tallies| && Eligible(tallies[k])
    && (forall i :: 0 <= i < |tallies| && Eligible(tallies[i]) ==> !Beats(tallies[i], tallies[k]))
    && (forall i :: 0 <= i < k && Eligible(tallies[i]) ==> Beats(tallies[k], tallies[i]))
  }

  lemma WinnerUnique(tallies: seq<Tally>, k: nat)
    requires Winner(tallies, k)
    ensures Choose(tallies) == Some(k)
  {
    var r := Choose(tallies);
    assert r.Some?;
    var j := r.value;
    assert !Beats(tallies[j], tallies[k]);
    assert !Beats(tallies[k], tallies[j]);
  }

  /** The mean of an id's votes never exceeds the threshold, since only
      distances at or under the threshold vote. */
  lemma ChosenMeanWithinThreshold(preds: seq<Scored>, threshold: real, id: int)
    requires id in Voters(Qualifying(preds, threshold))
    ensures TallyOf(Qualifying(preds, threshold), id).mean <= threshold
  {
    var votes := Qualifying(preds, threshold);
    MeanAtMost(Ballot(votes, id), threshold);
  }

  /* ---------- the decision ---------- */

  /** The fallback accepts the single best prediction only this far under
      the threshold. */
  const FallbackMargin: real := 5.0

  /** What the vote and the fallback decide: a label id with its confidence
      (a distance) and box, or a rejection reporting the best distance. */
  datatype Decision = Accepted(id: int, confidence: real, box: Box) | Rejected(best: real, box: Box)

  /** The voting rule on the predictions of the filtered variants, in order:
      the vote's winner if its mean is within the threshold, otherwise the
      best prediction if it is at least `FallbackMargin` under the threshold,
      otherwise a rejection carrying the best distance and its box. An
      accepted confidence never exceeds the threshold. */
  function Decide(preds: seq<Scored>, threshold: real): (r: Decision)
    requires |preds| > 0
    ensures r.Accepted? ==> r.confidence <= threshold
    ensures r.Accepted? ==> exists p :: p in preds && p.id == r.id && p.box == r.box
    ensures r.Rejected? ==> r.best == preds[Best(preds)].distance && r.box == preds[Best(preds)].box
  {
    var votes := Qualifying(preds, threshold);
    var tallies := Tallies(votes);
    var c := Choose(tallies);
    if c.Some? && tallies[c.value].mean <= threshold then
      var t := tallies[c.value];
      var ballot := Ballot(votes, t.id);
      assert ballot[Best(ballot)] in ballot;
      assert ballot[Best(ballot)] in preds;
      Accepted(t.id, t.mean, t.box)
    else
      var b := preds[Best(preds)];
      if b.distance <= threshold - FallbackMargin then Accepted(b.id, b.distance, b.box)
      else Rejected(b.distance, b.box)
  }

  /** The decision in terms of the vote alone: when some label id has
      `MinVotes` qualifying votes, the vote's winner is accepted (its mean can
      never exceed the threshold); otherwise the best prediction is accepted
      exactly when it is at least `FallbackMargin` under the threshold. */
  lemma DecideCases(preds: seq<Scored>, threshold: real)
    requires |preds| > 0
    ensures var tallies := Tallies(Qualifying(preds, threshold));
      var r := Decide(preds, threshold);
      match Choose(tallies)
      case Some(k) =>
        r == Accepted(tallies[k].id, tallies[k].mean, tallies[k].box)
      case None =>
        var b := preds[Best(preds)];
        r == (if b.distance <= threshold - FallbackMargin then Accepted(b.id, b.distance, b.box)
              else Rejected(b.distance, b.box))
  {
    var votes := Qualifying(preds, threshold);
    var tallies := Tallies(votes);
    match Choose(tallies)
    case Some(k) =>
      ChosenMeanWithinThreshold(preds, threshold, Voters(votes)[k]);
    case None =>
  }

  /* ---------- score and adaptive threshold ---------- */

  /** Guard against division by zero in the score (`1e-6`). */
  const ScoreFloor: real := 0.000001

  /** `max(0.0, min(1.0, (threshold - confidence) / max(threshold, 1e-6)))`:
      a score in `[0, 1]` that is positive exactly when the distance is under
      the threshold. */
  function Score(threshold: real, confidence: real): (r: real)
    ensures 0.0 <= r <= 1.0
    ensures r > 0.0 <==> confidence < threshold
  {
    var scale := if threshold >= ScoreFloor then threshold else ScoreFloor;
    var raw := (threshold - confidence) / scale;
    var capped := if raw <= 1.0 then raw else 1.0;
    if capped >= 0.0 then capped else 0.0
  }

  /** A larger distance never gives a larger score. */
  lemma ScoreAntitone(threshold: real, c1: real, c2: real)
    requires c1 <= c2
    ensures Score(threshold, c2) <= Score(threshold, c1)
  {
    var scale := if threshold >= ScoreFloor then threshold else ScoreFloor;
    DivideMonotone(threshold - c2, threshold - c1, scale);
  }

  lemma DivideMonotone(a: real, b: real, d: real)
    requires a <= b && d > 0.0
    ensures a / d <= b / d
  {
    assert b / d - a / d == (b - a) / d;
  }

  /** How far a per-label threshold may raise the global one. */
  const AdaptiveCap: real := 10.0

  /** `min(threshold + 10.0, max(threshold, label_th))`: never below the
      global threshold, never more than `AdaptiveCap` above it, and the label's
      own threshold whenever that lies in between. */
  function EffectiveThreshold(threshold: real, labelThreshold: real): (r: real)
    ensures threshold <= r <= threshold + AdaptiveCap
    ensures threshold <= labelThreshold <= threshold + AdaptiveCap ==> r == labelThreshold
  {
    var raised := if threshold >= labelThreshold then threshold else labelThreshold;
    if threshold + AdaptiveCap <= raised then threshold + AdaptiveCap else raised
  }
}

=== FILE: wrappers.dfy ===
/** Optional values, standing in for Python's `None` results. */
module Wrappers {

  datatype Option<+T> = None | Some(value: T) {

    /** The value if present, otherwise `default`: Python's `d.get(k, default)` idiom. */
    function GetOr(default: T): T
    {
      match this
      case Some(v) => v
      case None => default
    }
  }

  /** Python's `m.get(k)` on a dictionary. */
  function Get<K, V>(m: map<K, V>, k: K): (r: Option<V>)
    ensures r.Some? <==> k in m
    ensures r.Some? ==> r.value == m[k]
  {
    if k in m then Some(m[k]) else None
  }
}
